=== FILE: README.md ===
# Election administration core, modelled in Dafny

This project models the core of a browser-based student election system:
the administrator's console (`AdminManager` and the result aggregation in
admin.js), the login session (`AuthManager` in auth.js), the rotating
quote on the login page (`QuotesManager` in quotes.js) and the light/dark
theme (`ThemeManager` in theme.js).

The remote document store is modelled as four in-memory collections
(posts, candidates, voters, votes), each a sequence of records in the
order the store lists them. Everything the program learns from outside —
whether the identity provider accepts a password, whether `confirm()` was
answered with OK, which awaited read, write, reload or batch commit
rejected and with which message, what the image host answered, which id a
new document or timer gets, whether the document is still loading and
whether a page element exists — is a parameter of the operation that uses
it. The three reads that feed `fetchResults` are the exception: their
results are its inputs.

Modules, one per concern:

- `Common` — `Option`, JavaScript truthiness of strings, `startsWith`,
  and `trim` with the ECMAScript white-space set.
- `Records` — posts, candidates, ballots, voters; unique candidate ids,
  unique student codes, voters with their `voted` flag cleared.
- `Tally` — `fetchResults`: per post, the post's candidates, a vote
  counter per candidate, the total and the leader. The counting and
  the leader scan are methods with loops, proved against functions
  (`VoteCount`, `TallyRows`, `MaxVotes`, `IsLeader`).
- `Analytics` — the margin, competitive-race and unopposed-race rules
  over a results list, including the in-place sort by decreasing
  count that two of them perform.
- `Admin` — the collections (`Store`) and the `AdminManager` operations
  on them: cascade delete of a post, adding a candidate or voter,
  resetting all votes, the image checks, `generateColors`, `init`.
- `Auth` — the voter admission rule and the `AuthManager` session.
- `Quotes` — the quote rotation and its interval timer.
- `Theme` — the theme value, its storage entry and the toggle icon.

The candidate ids of the store are assumed distinct (a document store
guarantees this). The tally relies on it: with two candidates sharing an
id, the counter dictionary would hold one entry for both and the total
would no longer be the sum of the listed rows.

## Model

| member | source | states |
|---|---|---|
| Common.TrimStart | auth.js:39-40 | the longest suffix not starting with white space, everything dropped being white space |
| Common.TrimEnd | auth.js:39-40 | the longest prefix not ending with white space, everything dropped being white space |
| Common.Trim | auth.js:39-40 | the trimmed field is no longer than the field and neither starts nor ends with white space |
| Common.TrimEmptyIff | auth.js:39-43 | a field trims to the empty string exactly when it is all white space, which is when the login guard refuses it |
| Records.ClearedVoters | admin.js:1150-1151 | one record per voter, each the same voter in every field but with `voted` false |
| Tally.PostCandidates | admin.js:13 | the post's candidates are exactly the candidates whose `postId` is the post's id, and no more than all candidates |
| Tally.PostCandidatesAppend | admin.js:13 | the filter keeps input order: a candidate appended to the collection is appended to its own post's list and leaves every other post's list unchanged |
| Tally.VoteCount | admin.js:17-24 | a candidate's count is the number of ballots whose truthy selection for the post is that candidate's id, so never more than the number of ballots |
| Tally.Selection | admin.js:18-19 | a ballot selects a candidate for the post exactly when it has a non-empty entry for the post, and then that entry |
| Tally.TallyRows | admin.js:36 | one row per candidate of the post, in input order, each carrying that candidate's count |
| Tally.SumVotes | admin.js:37 | the sum of the row counts is at least every single count and is 0 exactly when every count is 0 |
| Tally.IdsInOrder | admin.js:16 | the candidate ids in candidate order, which with distinct ids is the dictionary's key order |
| Tally.ValuesSumIsRowSum | admin.js:36-37 | summing `Object.values` of the counter dictionary in key order gives the sum of the rows built from it |
| Tally.MaxVotes | admin.js:26-33 | the largest count: an upper bound of every row's count, attained by some row, 0 without rows |
| Tally.CountVotes | admin.js:15-24 | the counter dictionary has exactly the post's candidate ids as keys, and each counter equals the number of ballots selecting that id for the post |
| Tally.FindLeader | admin.js:26-33 | the strictly-greater scan from 0 yields the first row with the largest count and that count, or no leader and 0 when every count is 0 |
| Tally.TallyPost | admin.js:11-40 | one result record: the post, its candidates with their counts in input order, the total summed over the counter dictionary, which equals both the sum of the row counts and the number of ballots that select one of the post's candidates, and the leader |
| Tally.FetchResults | admin.js:11-41 | one result per post, in post order, each the result `TallyPost` describes |
| Tally.PostCandidatesUnique | admin.js:13-16 | filtering candidates of one post keeps their ids distinct, so each gets its own counter |
| Tally.HitsAtMostOne | admin.js:18-22 | a ballot adds to at most one counter of a post, and to none when its selection is missing, empty or not one of the post's candidates |
| Tally.SumStep | admin.js:17-24 | one more ballot raises the sum of the post's counts by the number of the post's candidates it names (at most one with distinct ids, by `HitsAtMostOne`) |
| Tally.SumWithoutBallots | admin.js:15-16 | with no ballots every counter stays at its initial 0 and the sum is 0 |
| Tally.TotalCountsValidBallots | admin.js:17-37 | the total equals the number of ballots whose selection for the post names one of its candidates |
| Tally.TotalAtMostBallots | admin.js:17-37 | the total and every single count are at most the number of ballots |
| Tally.LeadingVotesIsMaximum | admin.js:26-33 | `leadingVotes` is the maximum count, 0 without candidates |
| Tally.LeaderDetermined | admin.js:26-33 | the leader and its count are determined by the rows: any two results satisfying the leader rule agree |
| Tally.ForeignSelectionIgnored | admin.js:18-22 | a ballot whose selection for the post is not one of its candidates changes no count |
| Tally.NoBallotsNoLeader | admin.js:15-33 | without ballots every count, the total and `leadingVotes` are 0 and there is no leader |
| Analytics.InsertByVotes | admin.js:881 | inserting a row keeps the multiset of rows and puts either the row or the old head first |
| Analytics.SortByVotes | admin.js:881 | the sort by `b.votes - a.votes` is a permutation of the rows; stability is proved at the head (`SortedHeadAt`) |
| Analytics.InsertKeepsDescending | admin.js:881 | inserting into a list sorted by decreasing count keeps it sorted |
| Analytics.SortedDescending | admin.js:881 | after the sort no row has a larger count than a row before it |
| Analytics.FirstMaxIndex | admin.js:881-882 | the index of the earliest row carrying the largest count |
| Analytics.InsertHead | admin.js:881 | an inserted row goes first exactly when its count is at least the old head's |
| Analytics.SortedHeadAt | admin.js:881-882 | the stable sort's first row is the row at `FirstMaxIndex` |
| Analytics.SortedHeadIsFirstMax | admin.js:881-882 | the stable sort puts first the earliest row with the largest count |
| Analytics.SortedHeadIsLeader | admin.js:881-882 | when some candidate has a vote, the first sorted row is the leading candidate the aggregation reports |
| Analytics.PositiveCount | admin.js:990 | the number of candidates with a vote: at most the number of candidates, 0 exactly when no candidate has a vote, and at most 1 exactly when no two candidates both have one |
| Analytics.Margin | admin.js:884 | on rows sorted by decreasing count the margin is between 0 and the first count; 0 without rows |
| Analytics.IsCompetitive | admin.js:978 | competitive exactly when there are two or more rows and the margin is at most 2 |
| Analytics.IsUnopposed | admin.js:989-991 | a race is unopposed exactly when no two of its candidates both have a vote; in particular a race with at most one candidate |
| Analytics.MarginBounds | admin.js:881-884 | the margin after sorting lies between 0 and the largest count, and with two or more candidates it is 0 exactly when the first two tie |
| Analytics.InsertKeepsPositiveCount | admin.js:989-991 | inserting a row does not change how many rows have a vote |
| Analytics.SortKeepsPositiveCount | admin.js:989-991 | sorting does not change how many rows have a vote |
| Analytics.UnopposedIgnoresOrder | admin.js:976-991 | the unopposed rule gives the same answer on the rows the competitive filter has reordered in place as on the original rows |
| Analytics.DescendingHeads | admin.js:977-978 | in rows sorted by decreasing count, no row outdoes the first, and no later row outdoes the second |
| Analytics.SameRowsSameHeads | admin.js:977-978 | two descending orders of the same rows have the same first and second counts, however ties are ordered |
| Analytics.CompetitiveIgnoresOrder | admin.js:976-979 | the competitive verdict depends only on which rows a race has, not on their order: it is fixed by the two largest counts |
| Analytics.SortCandidatesInPlace | admin.js:881 | the array holds the stably sorted rows afterwards |
| Analytics.PositionMargin | admin.js:881-884 | the array is sorted in place; the leader is its first row, absent when empty; the margin is first minus second, the first count for one row, 0 for none |
| Analytics.CompetitiveRace | admin.js:976-979 | the array is sorted in place; the race is competitive exactly when it has two or more rows and the first two are at most 2 votes apart |
| Admin.Store.constructor | admin.js:61-90 | the four collections hold the records they are given, with distinct candidate ids |
| Admin.WithoutPost | admin.js:365 | after deleting the post document, a post remains exactly when it remained before and has another id |
| Admin.OtherCandidates | admin.js:359-363 | the candidates left are exactly those of other posts |
| Admin.WithoutIds | admin.js:361-363 | the candidates left after deleting a set of ids are exactly those whose id is not in the set, in order |
| Admin.WithoutIdsUnique | admin.js:361-363 | deleting candidate documents keeps the remaining ids distinct |
| Admin.CascadeKeepsCandidatesHavePosts | admin.js:359-365 | deleting a post together with its candidates leaves every remaining candidate with an existing post |
| Admin.WithoutNoIds | admin.js:361-363 | deleting no candidate documents leaves the collection as it is |
| Admin.WithoutIdsAgain | admin.js:361-363 | deleting documents one id after another is deleting the set of those ids |
| Admin.WithoutIdsIsOtherCandidates | admin.js:359-363 | deleting exactly the ids of a post's candidates leaves the other posts' candidates, in order |
| Admin.PostCandidateIdsSingleOut | admin.js:359-363 | with distinct ids, a candidate's id is among the fetched ids of the post's candidates exactly when it belongs to the post |
| Admin.OtherCandidatesUnique | admin.js:359-363 | the cascade delete keeps candidate ids distinct |
| Admin.CascadeLeavesOtherCandidates | admin.js:359-363 | deleting the ids of the post's fetched candidates leaves exactly the other posts' candidates, in order and with distinct ids |
| Admin.DeleteCandidateDocuments | admin.js:361-363 | deleting the fetched candidates one id at a time removes exactly those ids, or, when the delete numbered k rejects, exactly the first k of them; no other collection changes |
| Admin.DeletePostKeepsOtherTallies | admin.js:357-369 | after the cascade delete, every other post has the same candidates, hence the same counts, total and leader |
| Admin.CandidateImage | admin.js:431-436 | a held, non-empty uploaded URL wins over the typed URL; without one the typed URL is used; the image is empty only when the typed URL is |
| Admin.CandidateFormError | admin.js:444-456 | the form is refused only with one of its two messages, and accepted only when a post is chosen |
| Admin.CandidateFormAcceptedIff | admin.js:444-456 | the candidate form is accepted exactly when a post is chosen and no chosen file is still uploading; a missing post is reported first |
| Admin.ImageError | admin.js:1245-1255 | a file is refused only with one of its two messages, an image over 5 MB with the size message, and accepted only with an image type and at most 5 MB |
| Admin.ImageAcceptedIff | admin.js:1245-1255 | an image is accepted exactly when its type starts with "image/" and it has at most 5 * 1024 * 1024 bytes; a wrong type is reported whatever the size |
| Admin.PaletteDistinct | admin.js:1110-1119 | the palette has eight pairwise different colours |
| Admin.GenerateColors | admin.js:1109-1125 | `count` colours, the i-th being palette entry i mod 8; colours eight apart are equal and any eight consecutive are all different |
| Admin.AdminManager.constructor | admin.js:101-105 | the manager starts on the "posts" section, not initialised, with no image upload held |
| Admin.AdminManager.Init | admin.js:107-117 | the set-up steps run on the first call only; afterwards the manager is initialised and later calls change nothing |
| Admin.AdminManager.ShowSection | admin.js:140-175 | the section becomes current only when its element exists |
| Admin.AdminManager.DeletePost | admin.js:357-369 | when confirmed and nothing rejects, every candidate of the post and then the post are deleted, all other posts and candidates stay and the success message shows; when a call rejects, the candidate deletes before it and (for a failing reload) the post delete stay done and no message shows; not confirmed, or a failed read, changes nothing; voters and votes are untouched; no candidate is ever left without its post |
| Admin.AdminManager.HandleAddCandidate | admin.js:424-472 | refuses without a post or while an upload is pending, reports a failed write with its message, otherwise appends the candidate with the uploaded URL or else the typed URL and drops the held upload, then shows success or, when the reload rejects, the failure message with the candidate stored; candidate ids stay distinct |
| Admin.AdminManager.HandleAddVoter | admin.js:516-550 | a failed read of the voters adds nothing and shows nothing; a student code already registered (`HasStudentCode`: some voter record carries it) adds nothing; a failed write adds nothing; otherwise the voter is appended, not yet voted, and success shows, or the failure message when the reload rejects; unique student codes stay unique |
| Admin.AdminManager.HandleResetVotes | admin.js:1129-1166 | without a signed-in user, with a failed re-authentication or a failed batch nothing changes and the matching error shows; after confirmation the votes collection is empty and every voter keeps all fields but has `voted` false |
| Admin.AdminManager.ImageUrlInput | admin.js:1234-1239 | typing a non-empty URL drops the held upload, so a new candidate gets the typed URL |
| Admin.AdminManager.RemoveImagePreview | admin.js:1319-1325 | the held upload is dropped |
| Admin.AdminManager.HandleImageUpload | admin.js:1242-1291 | no file does nothing; a rejected file shows its error and keeps the held upload; an accepted file's URL is held when the host returns one, otherwise the failure message shows and the held upload stays |
| Auth.FirstMatch | auth.js:71-80 | the query's first document: absent exactly when no voter has that code and password (`Credentials`, the two equality filters), otherwise a matching voter with no matching voter before it |
| Auth.Admit | auth.js:71-86 | an admitted voter is a matching voter (`Credentials`) that has not voted; "Invalid student credentials" exactly when no voter matches; the only other rejection is the already-voted message |
| Auth.UniqueCodesAdmission | auth.js:71-86 | with unique student codes, a student is admitted exactly when some record matching both filters (`Credentials`) has not voted, and then with that record |
| Auth.FirstMatchIgnoresVoted | auth.js:71-80 | whether a record matches does not depend on the `voted` flags |
| Auth.ResetReadmits | auth.js:76-86 | after the reset of all votes, every student with a matching record is admitted again |
| Auth.AuthManager.constructor | auth.js:3-5 | the session starts with no user and no role |
| Auth.AuthManager.LoginAdmin | auth.js:54-68 | a successful sign-in holds the admin user with role "admin" and returns true; a failed one throws "Invalid admin credentials" and changes nothing |
| Auth.AuthManager.LoginVoter | auth.js:70-88 | a rejected query throws the store's message and changes nothing; otherwise an admitted voter becomes the user with role "voter", and a rejection throws its message and changes nothing |
| Auth.AuthManager.HandleLogin | auth.js:38-52 | an empty trimmed username or password returns false with the prompt and changes nothing; role "admin" goes to the admin login and every other role to the voter login with the trimmed fields, a rejected query throwing its message; the session stays consistent |
| Auth.AuthManager.Logout | auth.js:90-96 | user and role are both cleared |
| Auth.AuthManager.IsLoggedIn | auth.js:144-146 | in a consistent session a user is held exactly when a role is |
| Auth.AuthManager.IsAdmin | auth.js:148-150 | never together with `isVoter`; in a consistent session the user is then the admin |
| Auth.AuthManager.IsVoter | auth.js:152-154 | in a consistent session the user is then a voter record that had not voted |
| Quotes.NextIndex | quotes.js:135 | one rotation gives `(i + 1) % n`, which stays below `n` |
| Quotes.Rotated | quotes.js:134-137 | any number of rotations keeps the index below the number of quotes |
| Quotes.RotatedClosedForm | quotes.js:135 | up to `n` rotations move the index `k` places forward, wrapping at most once |
| Quotes.RotationCycle | quotes.js:135 | `n` rotations return to the starting index, and they reach every index exactly once |
| Quotes.QuotesManager.constructor | quotes.js:3-70 | the fifteen quotes, index 0, no interval, not on the login page |
| Quotes.QuotesManager.Init | quotes.js:72-86 | only with the login page active and the quote element present is the manager put on the login page and the rotation started; otherwise nothing changes |
| Quotes.QuotesManager.StartQuoteRotation | quotes.js:88-106 | nothing happens off the login page or without the element; otherwise quote 0 is shown, the index is not reset, and a new interval is started and held while an earlier one keeps running |
| Quotes.QuotesManager.RotateQuote | quotes.js:134-137 | the index moves one on modulo the number of quotes, stays in range, and that quote is shown |
| Quotes.QuotesManager.StopQuoteRotation | quotes.js:139-144 | the held interval is cleared and dropped; with none held nothing changes, so a second call is a no-op |
| Quotes.QuotesManager.Destroy | quotes.js:147-150 | the rotation is stopped and the manager is off the login page |
| Theme.InitialTheme | theme.js:5 | the stored theme when it is non-empty, "light" otherwise; never empty |
| Theme.Toggled | theme.js:39 | "light" becomes "dark", anything else "light" (the result is "dark" exactly when the theme was "light"); a toggle of "light" or "dark" always changes the theme |
| Theme.ToggleTwice | theme.js:39 | two toggles from "light" or "dark" return to it; from any other value they end on "dark" |
| Theme.IconFor | theme.js:48 | the icon is always the moon or the sun |
| Theme.IconIff | theme.js:48 | the icon is the moon exactly in the light theme, the sun otherwise |
| Theme.ThemeManager.constructor | theme.js:3-21 | the initial theme is current, shown on the page and stored; while the document is loading no toggle button is known yet, otherwise the button is looked up at once and its icon shows the current theme |
| Theme.ThemeManager.ApplyTheme | theme.js:31-37 | the theme becomes current, is shown on the page and stored under "evoting_theme"; no other entry changes |
| Theme.ThemeManager.UpdateToggleIcon | theme.js:44-51 | when the button and its icon exist the icon shows the current theme; otherwise nothing changes |
| Theme.ThemeManager.SetupToggle | theme.js:23-29 | the button is looked up and, when it has an icon, the icon shows the current theme |
| Theme.ThemeManager.ToggleTheme | theme.js:38-42 | the toggled theme becomes current and stored, so the stored theme equals the current one, and the icon follows it |

## Left out

- Remote store, identity provider and image host: every read, write,
  query, re-authentication, sign-in, sign-out and upload is replaced by
  its outcome, passed as a parameter (collections as sequences, success
  flags, error messages, new document and timer ids).
- Document order: the store's `orderBy('createdAt')` order is taken as
  the order of the sequences; `createdAt` and other server timestamps are
  not modelled.
- Admin.AdminManager.DeletePost: the confirmation text says votes for the
  post are removed too, but the code deletes only the candidates and the
  post, and so does the model.
- Auth.FirstMatch: the voter query has no ordering clause; the model takes
  the first matching voter in collection order as the snapshot's first
  document.
- Voter documents: a voter document written by `addVoter` has no `voted`
  field; the model stores `false`, which reads the same under the
  truthiness test of the voter login.
- After the vote reset, `loadResults` and `loadVoters` are called without
  being awaited; a rejection there changes no modelled state and is not
  an outcome of the model.
- Admin.AdminManager.DeletePost: a failing candidate delete is named by
  its position among the post's fetched candidates, so its index is below
  their number (a delete the loop never makes cannot reject).
- Admin.AdminManager.HandleResetVotes: the batch deletes the ballots and
  clears the flags atomically; a failure anywhere after re-authentication
  is one `commitSucceeds` flag.
- Admin.AdminManager.Init: the listeners that `init` attaches and the
  first data load are DOM and store work; the model counts how often they
  ran (`setupRuns`) instead.
- The reset of the held upload inside `setupFileUploads` (admin.js:1218)
  is the same state change as `RemoveImagePreview` and has no member of its
  own.
- DOM rendering: cards, modals, previews, message banners (`showMessage`),
  page switching (`showPage`), button enabling, form resets, injected
  styles; `image-modal.js` is not part of this model.
- Chart.js and the analytics charts, the border colours derived from the
  palette, tooltips.
- Floating point and randomness: participation rates and percentages via
  `Math.round`, `formatFileSize`, the random engagement data.
- The `FileReader` base64 step of the image upload, and the imgbb request.
- Timers and asynchronous ordering: `setTimeout`, `setInterval` firing,
  the 4-second rotation cadence, the 250 ms fade, and the interleaving of
  concurrent listeners; an interval is represented only by its id.
- `window.dataManager`: the analytics results list is an input; the
  analytics members work on one result's candidate rows.
- Post creation, candidate and voter deletion, and the getters
  `getCurrentUser`, `getCurrentRole`, `getCurrentTheme`, which return a
  field unchanged.

=== FILE: admin.dfy ===
/** `AdminManager` (admin.js) with each remote collection held in memory:
    the cascade delete of a post, the duplicate-student-code check when a
    voter is added, the reset of all votes, the candidate form and image
    checks, the chart palette and the `init` guard. What the remote store,
    the identity provider, `confirm()` and the image host answer is passed
    in as a parameter. */
module Admin {
  import opened Common
  import opened Records
  import opened Tally

  /** What `showMessage` displays when an operation ends; `NoMessage` when
      it displays nothing. */
  datatype Notice = NoMessage | Success(text: string) | Error(text: string)

  /** The fields of the add-candidate form. */
  datatype CandidateForm = CandidateForm(postId: string, name: string, slogan: string, imageUrl: string, bio: string)

  /** The `type` and `size` of a chosen file. */
  datatype ImageFile = ImageFile(mimeType: string, size: nat)

  /** How the image host answered an upload: a response whose `success`
      flag was set carrying `data.url`, a response without it, or a thrown
      error with its message. */
  datatype UploadOutcome = Uploaded(url: string) | NotUploaded | UploadThrew(message: string)

  /** The awaited store call at which the cascade delete of a post rejects:
      the read of the candidates, the delete of the `index`-th candidate
      fetched for the post (counted from 0), the delete of the post, or the
      reload of the posts list afterwards. */
  datatype CascadeFailure = FetchFails | CandidateDeleteFails(index: nat) | PostDeleteFails | ReloadFails

  /** The largest accepted image, 5 MB. */
  const MaxImageBytes: nat := 5 * 1024 * 1024

  /** The eight chart colours, in order. */
  const Palette: seq<string> := [
    "rgba(37, 99, 235, 0.8)",
    "rgba(34, 197, 94, 0.8)",
    "rgba(239, 68, 68, 0.8)",
    "rgba(245, 158, 11, 0.8)",
    "rgba(139, 92, 246, 0.8)",
    "rgba(236, 72, 153, 0.8)",
    "rgba(20, 184, 166, 0.8)",
    "rgba(251, 146, 60, 0.8)"
  ]

  // ------------------------------------------------------------------
  // The collections
  // ------------------------------------------------------------------

  /** The four collections of the remote store, each in the order the
      store lists it. */
  class Store {
    var posts: seq<Post>
    var candidates: seq<Candidate>
    var voters: seq<Voter>
    var votes: seq<Ballot>

    /** Document ids are unique within the candidates collection. */
    ghost predicate Valid()
      reads this
    {
      UniqueIds(candidates)
    }

    constructor(posts: seq<Post>, candidates: seq<Candidate>, voters: seq<Voter>, votes: seq<Ballot>)
      requires UniqueIds(candidates)
      ensures Valid()
      ensures this.posts == posts && this.candidates == candidates
      ensures this.voters == voters && this.votes == votes
    {
      this.posts := posts;
      this.candidates := candidates;
      this.voters := voters;
      this.votes := votes;
    }
  }

  /** The posts other than `postId`. */
  function WithoutPost(posts: seq<Post>, postId: string): (r: seq<Post>)
    ensures forall p :: p in r <==> p in posts && p.id != postId
  {
    if posts == [] then []
    else if posts[0].id != postId then [posts[0]] + WithoutPost(posts[1..], postId)
    else WithoutPost(posts[1..], postId)
  }

  /** The candidates of the posts other than `postId`, in order. */
  function OtherCandidates(cs: seq<Candidate>, postId: string): (r: seq<Candidate>)
    ensures forall c :: c in r <==> c in cs && c.postId != postId
  {
    if cs == [] then []
    else if cs[0].postId != postId then [cs[0]] + OtherCandidates(cs[1..], postId)
    else OtherCandidates(cs[1..], postId)
  }

  /** The candidates whose id is not in `ids`, in order. */
  function WithoutIds(cs: seq<Candidate>, ids: set<string>): (r: seq<Candidate>)
    ensures forall c :: c in r <==> c in cs && c.id !in ids
  {
    if cs == [] then []
    else if cs[0].id !in ids then [cs[0]] + WithoutIds(cs[1..], ids)
    else WithoutIds(cs[1..], ids)
  }

  /** The ids of the posts. */
  function PostIds(posts: seq<Post>): set<string> {
    set p | p in posts :: p.id
  }

  /** Every candidate stands for a post that exists. */
  predicate CandidatesHavePosts(posts: seq<Post>, cs: seq<Candidate>) {
    forall c :: c in cs ==> c.postId in PostIds(posts)
  }

  /** Removing no ids removes nothing. */
  lemma {:induction false} WithoutNoIds(cs: seq<Candidate>)
    ensures WithoutIds(cs, {}) == cs
  {
    if cs != [] {
      WithoutNoIds(cs[1..]);
      assert cs == [cs[0]] + cs[1..];
    }
  }

  /** Deleting one more document removes one more id. */
  lemma {:induction false} WithoutIdsAgain(cs: seq<Candidate>, ids: set<string>, id: string)
    ensures WithoutIds(WithoutIds(cs, ids), {id}) == WithoutIds(cs, ids + {id})
  {
    if cs != [] {
      var c, tail := cs[0], cs[1..];
      WithoutIdsAgain(tail, ids, id);
      if c.id !in ids {
        var w := [c] + WithoutIds(tail, ids);
        assert WithoutIds(cs, ids) == w;
        assert w[0] == c && w[1..] == WithoutIds(tail, ids);
      }
    }
  }

  /** Removing a set of ids that holds exactly the ids of the post's
      candidates leaves the other posts' candidates. */
  lemma {:induction false} WithoutIdsIsOtherCandidates(cs: seq<Candidate>, ids: set<string>, postId: string)
    requires forall c :: c in cs ==> (c.id in ids <==> c.postId == postId)
    ensures WithoutIds(cs, ids) == OtherCandidates(cs, postId)
  {
    if cs != [] {
      assert forall c :: c in cs[1..] ==> c in cs;
      WithoutIdsIsOtherCandidates(cs[1..], ids, postId);
    }
  }

  /** With distinct ids, the ids of a post's candidates single out exactly
      that post's candidates. */
  lemma PostCandidateIdsSingleOut(cs: seq<Candidate>, postId: string)
    requires UniqueIds(cs)
    ensures forall c :: c in cs ==> (c.id in CandidateIds(PostCandidates(cs, postId)) <==> c.postId == postId)
  {
    forall c | c in cs
      ensures c.id in CandidateIds(PostCandidates(cs, postId)) ==> c.postId == postId
    {
      if c.id in CandidateIds(PostCandidates(cs, postId)) {
        var d :| d in PostCandidates(cs, postId) && d.id == c.id;
        var i :| 0 <= i < |cs| && cs[i] == c;
        var j :| 0 <= j < |cs| && cs[j] == d;
        assert i == j;
      }
    }
  }

  /** Dropping a post's candidates keeps ids distinct. */
  lemma {:induction false} OtherCandidatesUnique(cs: seq<Candidate>, postId: string)
    requires UniqueIds(cs)
    ensures UniqueIds(OtherCandidates(cs, postId))
  {
    if cs != [] {
      var tail := cs[1..];
      assert UniqueIds(tail) by {
        forall i, j | 0 <= i < j < |tail| ensures tail[i].id != tail[j].id {
          assert tail[i] == cs[i + 1] && tail[j] == cs[j + 1];
        }
      }
      OtherCandidatesUnique(tail, postId);
      forall c | c in OtherCandidates(tail, postId) ensures c.id != cs[0].id {
        var k :| 0 <= k < |tail| && tail[k] == c;
        assert cs[k + 1] == c;
      }
    }
  }

  /** Deleting documents keeps ids distinct. */
  lemma {:induction false} WithoutIdsUnique(cs: seq<Candidate>, ids: set<string>)
    requires UniqueIds(cs)
    ensures UniqueIds(WithoutIds(cs, ids))
  {
    if cs != [] {
      var tail := cs[1..];
      assert UniqueIds(tail) by {
        forall i, j | 0 <= i < j < |tail| ensures tail[i].id != tail[j].id {
          assert tail[i] == cs[i + 1] && tail[j] == cs[j + 1];
        }
      }
      WithoutIdsUnique(tail, ids);
      forall c | c in WithoutIds(tail, ids) ensures c.id != cs[0].id {
        var k :| 0 <= k < |tail| && tail[k] == c;
        assert cs[k + 1] == c;
      }
    }
  }

  /** Removing a post together with all its candidates leaves no candidate
      without its post. */
  lemma CascadeKeepsCandidatesHavePosts(posts: seq<Post>, cs: seq<Candidate>, postId: string)
    ensures CandidatesHavePosts(posts, cs) ==>
      CandidatesHavePosts(WithoutPost(posts, postId), OtherCandidates(cs, postId))
  {
    if CandidatesHavePosts(posts, cs) {
      forall c | c in OtherCandidates(cs, postId) ensures c.postId in PostIds(WithoutPost(posts, postId)) {
        var p :| p in posts && p.id == c.postId;
        assert p in WithoutPost(posts, postId);
      }
    }
  }

  /** Deleting the documents of a post's candidates leaves exactly the
      other posts' candidates, with distinct ids. */
  lemma CascadeLeavesOtherCandidates(cs: seq<Candidate>, postId: string)
    requires UniqueIds(cs)
    ensures WithoutIds(cs, CandidateIds(PostCandidates(cs, postId))) == OtherCandidates(cs, postId)
    ensures UniqueIds(OtherCandidates(cs, postId))
  {
    PostCandidateIdsSingleOut(cs, postId);
    WithoutIdsIsOtherCandidates(cs, CandidateIds(PostCandidates(cs, postId)), postId);
    OtherCandidatesUnique(cs, postId);
  }

  /** The loop of `deletePost` that deletes the candidate documents one id
      at a time. When the delete numbered `failsAt` rejects, the loop stops
      there with the deletes before it done. */
  method DeleteCandidateDocuments(store: Store, doomed: seq<Candidate>, failsAt: Option<nat>)
    returns (completed: bool)
    modifies store
    ensures completed <==> failsAt.None? || failsAt.value >= |doomed|
    ensures completed ==> store.candidates == WithoutIds(old(store.candidates), CandidateIds(doomed))
    ensures !completed ==> store.candidates == WithoutIds(old(store.candidates), CandidateIds(doomed[..failsAt.value]))
    ensures store.posts == old(store.posts)
    ensures store.voters == old(store.voters) && store.votes == old(store.votes)
  {
    ghost var before := store.candidates;
    WithoutNoIds(before);
    assert CandidateIds(doomed[..0]) == {};
    for i := 0 to |doomed|
      invariant store.candidates == WithoutIds(before, CandidateIds(doomed[..i]))
      invariant failsAt.Some? ==> failsAt.value >= i
      invariant store.posts == old(store.posts)
      invariant store.voters == old(store.voters) && store.votes == old(store.votes)
    {
      if failsAt == Some(i) {
        return false;
      }
      WithoutIdsAgain(before, CandidateIds(doomed[..i]), doomed[i].id);
      assert CandidateIds(doomed[..i + 1]) == CandidateIds(doomed[..i]) + {doomed[i].id} by {
        assert doomed[..i + 1] == doomed[..i] + [doomed[i]];
      }
      store.candidates := WithoutIds(store.candidates, {doomed[i].id});
    }
    assert doomed[..|doomed|] == doomed;
    completed := true;
  }

  /** Cascade delete leaves the tally of every other post alone: its
      candidates, and so its counts, total and leader, are the same. */
  lemma {:induction false} DeletePostKeepsOtherTallies(cs: seq<Candidate>, postId: string, other: string)
    requires other != postId
    ensures PostCandidates(OtherCandidates(cs, postId), other) == PostCandidates(cs, other)
  {
    if cs != [] {
      var c, tail := cs[0], cs[1..];
      DeletePostKeepsOtherTallies(tail, postId, other);
      if c.postId != postId {
        var w := [c] + OtherCandidates(tail, postId);
        assert OtherCandidates(cs, postId) == w;
        assert w[0] == c && w[1..] == OtherCandidates(tail, postId);
      }
    }
  }

  /** Some registered voter has the student code `code`. */
  predicate HasStudentCode(voters: seq<Voter>, code: string) {
    exists v :: v in voters && v.studentCode == code
  }

  // ------------------------------------------------------------------
  // Form and file checks
  // ------------------------------------------------------------------

  /** The image stored with a new candidate: the uploaded URL when one is
      held, otherwise the URL typed into the form. */
  function CandidateImage(candidateImageData: Option<string>, urlField: string): (url: string)
    ensures TruthyOpt(candidateImageData) ==> url == candidateImageData.value
    ensures !TruthyOpt(candidateImageData) ==> url == urlField
    ensures url == urlField || (candidateImageData == Some(url) && url != "")
    ensures candidateImageData.None? ==> url == urlField
    ensures url == "" ==> urlField == ""
  {
    if TruthyOpt(candidateImageData) then candidateImageData.value else urlField
  }

  /** The message that stops the add-candidate form, if any: no post
      chosen, or a file chosen whose upload has not finished. */
  function CandidateFormError(postId: string, fileChosen: bool, candidateImageData: Option<string>): (err: Option<string>)
    ensures err.Some? ==>
      err.value == "Please select a post for the candidate" || err.value == "Please wait for the image to finish uploading."
    ensures err.None? ==> postId != ""
  {
    if !Truthy(postId) then Some("Please select a post for the candidate")
    else if fileChosen && !TruthyOpt(candidateImageData) then Some("Please wait for the image to finish uploading.")
    else None
  }

  /** The form is accepted exactly when a post is chosen and no upload is
      pending; the missing post is reported first. */
  lemma CandidateFormAcceptedIff(postId: string, fileChosen: bool, candidateImageData: Option<string>)
    ensures CandidateFormError(postId, fileChosen, candidateImageData).None?
      <==> postId != "" && (!fileChosen || TruthyOpt(candidateImageData))
    ensures postId == "" ==>
      CandidateFormError(postId, fileChosen, candidateImageData) == Some("Please select a post for the candidate")
  {
  }

  /** The message that rejects a chosen image file, if any: the type is
      checked before the size. */
  function ImageError(file: ImageFile): (err: Option<string>)
    ensures err.None? ==> StartsWith(file.mimeType, "image/") && file.size <= MaxImageBytes
    ensures StartsWith(file.mimeType, "image/") && file.size > MaxImageBytes ==>
      err == Some("Image file size must be less than 5MB")
    ensures err.Some? ==>
      err.value == "Please select a valid image file" || err.value == "Image file size must be less than 5MB"
  {
    if !StartsWith(file.mimeType, "image/") then Some("Please select a valid image file")
    else if file.size > MaxImageBytes then Some("Image file size must be less than 5MB")
    else None
  }

  /** An image is accepted exactly when its type starts with "image/" and
      it has at most 5 * 1024 * 1024 bytes; a wrong type is reported
      whatever the size. */
  lemma ImageAcceptedIff(file: ImageFile)
    ensures ImageError(file).None? <==> StartsWith(file.mimeType, "image/") && file.size <= 5242880
    ensures !StartsWith(file.mimeType, "image/") ==> ImageError(file) == Some("Please select a valid image file")
  {
  }

  /** The eight palette colours are pairwise different. */
  lemma PaletteDistinct()
    ensures |Palette| == 8
    ensures forall i, j :: 0 <= i < j < 8 ==> Palette[i] != Palette[j]
  {
    assert Palette[0][5] == '3' && Palette[1][5] == '3' && Palette[2][5] == '2' && Palette[3][5] == '2';
    assert Palette[4][5] == '1' && Palette[5][5] == '2' && Palette[6][5] == '2' && Palette[7][5] == '2';
    assert Palette[0][6] == '7' && Palette[1][6] == '4' && Palette[2][6] == '3' && Palette[3][6] == '4';
    assert Palette[5][6] == '3' && Palette[6][6] == '0' && Palette[7][6] == '5';
    assert Palette[2][7] == '9' && Palette[5][7] == '6';
  }

  /** Two positions fewer than eight apart fall on different palette
      entries, and positions eight apart on the same one. */
  lemma PalettePositions(i: nat, j: nat)
    ensures i < j < i + 8 ==> i % 8 != j % 8
    ensures (i + 8) % 8 == i % 8
  {
  }

  /** `generateColors(count)`: `count` colours, cycling through the
      palette; any eight consecutive colours are all different. */
  method GenerateColors(count: nat) returns (colors: seq<string>)
    ensures |colors| == count
    ensures forall i :: 0 <= i < count ==> colors[i] == Palette[i % 8]
    ensures forall i :: 0 <= i && i + 8 < count ==> colors[i + 8] == colors[i]
    ensures forall i, j :: 0 <= i < j < count && j - i < 8 ==> colors[i] != colors[j]
  {
    PaletteDistinct();
    colors := [];
    for i := 0 to count
      invariant |colors| == i
      invariant forall k :: 0 <= k < i ==> colors[k] == Palette[k % 8]
    {
      colors := colors + [Palette[i % |Palette|]];
    }
    forall i, j | 0 <= i < j < count && j - i < 8 ensures colors[i] != colors[j] {
      PalettePositions(i, j);
    }
    forall i | 0 <= i && i + 8 < count ensures colors[i + 8] == colors[i] {
      PalettePositions(i, i);
    }
  }

  // ------------------------------------------------------------------
  // The manager
  // ------------------------------------------------------------------

  /** The fields `AdminManager` updates. `setupRuns` counts how often the
      set-up steps of `init` (attaching the navigation, modal and form
      listeners and loading the first data) have run. */
  class AdminManager {
    var currentSection: string
    var initialized: bool
    var candidateImageData: Option<string>
    var setupRuns: nat

    constructor()
      ensures currentSection == "posts" && !initialized
      ensures candidateImageData.None? && setupRuns == 0
    {
      currentSection := "posts";
      initialized := false;
      candidateImageData := None;
      setupRuns := 0;
    }

    /** `init`: sets up once; every later call returns at once. */
    method Init()
      modifies this
      ensures initialized
      ensures setupRuns == if old(initialized) then old(setupRuns) else old(setupRuns) + 1
      ensures currentSection == old(currentSection) && candidateImageData == old(candidateImageData)
    {
      if initialized {
        return;
      }
      setupRuns := setupRuns + 1;
      initialized := true;
    }

    /** `showSection`: the section becomes current when its element exists. */
    method ShowSection(sectionId: string, sectionExists: bool)
      modifies this
      ensures currentSection == if sectionExists then sectionId else old(currentSection)
      ensures initialized == old(initialized) && candidateImageData == old(candidateImageData)
      ensures setupRuns == old(setupRuns)
    {
      if sectionExists {
        currentSection := sectionId;
      }
    }

    /** `deletePost` after `confirm()` answered `confirmed`: the post's
        candidates are read, each is deleted by id, then the post, then the
        posts list is reloaded and the success message shown. Nothing
        catches a rejection: the first awaited call that rejects, named by
        `failure`, ends the operation with what was done before it kept and
        no message shown. The votes collection is left as it is. Because the
        post is deleted last, no candidate is ever left without its post. */
    method DeletePost(store: Store, postId: string, confirmed: bool, failure: Option<CascadeFailure>)
      returns (notice: Notice)
      requires store.Valid()
      requires failure.Some? && failure.value.CandidateDeleteFails? ==>
        failure.value.index < |PostCandidates(store.candidates, postId)|
      modifies store
      ensures store.Valid()
      ensures store.voters == old(store.voters) && store.votes == old(store.votes)
      ensures !confirmed || failure == Some(FetchFails) ==> notice == NoMessage && unchanged(store)
      ensures confirmed && failure.None? ==>
        && notice == Success("Post deleted successfully!")
        && store.candidates == OtherCandidates(old(store.candidates), postId)
        && store.posts == WithoutPost(old(store.posts), postId)
      ensures failure.Some? ==> notice == NoMessage
      ensures confirmed && failure.Some? && failure.value.CandidateDeleteFails? ==>
        && store.candidates == WithoutIds(old(store.candidates),
             CandidateIds(PostCandidates(old(store.candidates), postId)[..failure.value.index]))
        && store.posts == old(store.posts)
      ensures confirmed && failure == Some(PostDeleteFails) ==>
        store.candidates == OtherCandidates(old(store.candidates), postId) && store.posts == old(store.posts)
      ensures confirmed && failure == Some(ReloadFails) ==>
        && store.candidates == OtherCandidates(old(store.candidates), postId)
        && store.posts == WithoutPost(old(store.posts), postId)
      ensures CandidatesHavePosts(old(store.posts), old(store.candidates)) ==>
        CandidatesHavePosts(store.posts, store.candidates)
    {
      if !confirmed || failure == Some(FetchFails) {
        return NoMessage;
      }
      ghost var before := store.candidates;
      var doomed := PostCandidates(store.candidates, postId);
      CascadeLeavesOtherCandidates(store.candidates, postId);
      CascadeKeepsCandidatesHavePosts(store.posts, store.candidates, postId);
      var failsAt := if failure.Some? && failure.value.CandidateDeleteFails? then Some(failure.value.index) else None;
      var completed := DeleteCandidateDocuments(store, doomed, failsAt);
      if !completed {
        WithoutIdsUnique(before, CandidateIds(doomed[..failsAt.value]));
        return NoMessage;
      }
      if failure == Some(PostDeleteFails) {
        return NoMessage;
      }
      store.posts := WithoutPost(store.posts, postId);
      if failure == Some(ReloadFails) {
        return NoMessage;
      }
      notice := Success("Post deleted successfully!");
    }

    /** `handleAddCandidate`: the image is the uploaded URL when one is held
        and the typed URL otherwise; the form is refused without a post or
        while an upload is pending; a failed write reports its message; a
        stored candidate clears the held upload, and the candidates list is
        then reloaded inside the same `try`, so a failed reload reports
        "Failed to add candidate" although the candidate is stored. */
    method HandleAddCandidate(store: Store, form: CandidateForm, fileChosen: bool, newId: string,
                              writeError: Option<string>, reloadError: Option<string>) returns (notice: Notice)
      requires store.Valid() && newId !in CandidateIds(store.candidates)
      modifies this, store
      ensures store.Valid()
      ensures store.posts == old(store.posts) && store.voters == old(store.voters)
      ensures store.votes == old(store.votes)
      ensures currentSection == old(currentSection) && initialized == old(initialized)
      ensures setupRuns == old(setupRuns)
      ensures CandidateFormError(form.postId, fileChosen, old(candidateImageData)).Some? ==>
        && notice == Error(CandidateFormError(form.postId, fileChosen, old(candidateImageData)).value)
        && store.candidates == old(store.candidates) && candidateImageData == old(candidateImageData)
      ensures CandidateFormError(form.postId, fileChosen, old(candidateImageData)).None? && writeError.Some? ==>
        && notice == Error("Failed to add candidate: " + writeError.value)
        && store.candidates == old(store.candidates) && candidateImageData == old(candidateImageData)
      ensures CandidateFormError(form.postId, fileChosen, old(candidateImageData)).None? && writeError.None? ==>
        && candidateImageData.None?
        && store.candidates == old(store.candidates) + [Candidate(newId, form.postId, form.name, form.slogan,
                                 CandidateImage(old(candidateImageData), form.imageUrl), form.bio)]
        && notice == if reloadError.Some? then Error("Failed to add candidate: " + reloadError.value)
                     else Success("Candidate added successfully!")
    {
      var imageUrl := CandidateImage(candidateImageData, form.imageUrl);
      var candidate := Candidate(newId, form.postId, form.name, form.slogan, imageUrl, form.bio);
      var formError := CandidateFormError(form.postId, fileChosen, candidateImageData);
      if formError.Some? {
        return Error(formError.value);
      }
      if writeError.Some? {
        return Error("Failed to add candidate: " + writeError.value);
      }
      assert forall k :: 0 <= k < |store.candidates| ==> store.candidates[k].id in CandidateIds(store.candidates);
      store.candidates := store.candidates + [candidate];
      candidateImageData := None;
      if reloadError.Some? {
        return Error("Failed to add candidate: " + reloadError.value);
      }
      notice := Success("Candidate added successfully!");
    }

    /** `handleAddVoter`: the registered voters are read first, outside the
        `try`, so a failed read (`readFails`) ends the handler with nothing
        added and no message. Nothing is added when the student code is
        already registered; otherwise the voter is stored, not yet voted,
        and the voters list reloaded inside the `try`, so a failed reload
        reports "Failed to add voter" although the voter is stored. */
    method HandleAddVoter(store: Store, name: string, studentCode: string, password: string, newId: string,
                          readFails: bool, writeError: Option<string>, reloadError: Option<string>)
      returns (notice: Notice)
      requires store.Valid()
      modifies store
      ensures store.Valid()
      ensures store.posts == old(store.posts) && store.candidates == old(store.candidates)
      ensures store.votes == old(store.votes)
      ensures readFails ==> notice == NoMessage && store.voters == old(store.voters)
      ensures !readFails && HasStudentCode(old(store.voters), studentCode) ==>
        notice == Error("Student code already exists") && store.voters == old(store.voters)
      ensures !readFails && !HasStudentCode(old(store.voters), studentCode) && writeError.Some? ==>
        notice == Error("Failed to add voter: " + writeError.value) && store.voters == old(store.voters)
      ensures !readFails && !HasStudentCode(old(store.voters), studentCode) && writeError.None? ==>
        && store.voters == old(store.voters) + [Voter(newId, name, studentCode, password, false)]
        && notice == if reloadError.Some? then Error("Failed to add voter: " + reloadError.value)
                     else Success("Voter added successfully!")
      ensures UniqueStudentCodes(old(store.voters)) ==> UniqueStudentCodes(store.voters)
    {
      if readFails {
        return NoMessage;
      }
      if HasStudentCode(store.voters, studentCode) {
        return Error("Student code already exists");
      }
      if writeError.Some? {
        return Error("Failed to add voter: " + writeError.value);
      }
      assert forall k :: 0 <= k < |store.voters| ==> store.voters[k] in store.voters;
      store.voters := store.voters + [Voter(newId, name, studentCode, password, false)];
      if reloadError.Some? {
        return Error("Failed to add voter: " + reloadError.value);
      }
      notice := Success("Voter added successfully!");
    }

    /** `handleResetVotes`: without a signed-in admin it refuses; a failed
        re-authentication or a failed batch is reported as a wrong
        password; after `confirm()` the batch deletes every ballot and sets
        every voter's `voted` to false, all at once. */
    method HandleResetVotes(store: Store, signedIn: bool, reauthenticated: bool, confirmed: bool, commitSucceeds: bool)
      returns (notice: Notice)
      requires store.Valid()
      modifies store
      ensures store.Valid()
      ensures store.posts == old(store.posts) && store.candidates == old(store.candidates)
      ensures !signedIn ==>
        notice == Error("You must be logged in as admin to reset votes.") && unchanged(store)
      ensures signedIn && (!reauthenticated || (confirmed && !commitSucceeds)) ==>
        notice == Error("Invalid admin password") && unchanged(store)
      ensures signedIn && reauthenticated && !confirmed ==> notice == NoMessage && unchanged(store)
      ensures signedIn && reauthenticated && confirmed && commitSucceeds ==>
        && notice == Success("All votes have been reset successfully!")
        && store.votes == []
        && store.voters == ClearedVoters(old(store.voters))
    {
      if !signedIn {
        return Error("You must be logged in as admin to reset votes.");
      }
      if !reauthenticated {
        return Error("Invalid admin password");
      }
      if !confirmed {
        return NoMessage;
      }
      var updated: seq<Voter> := [];
      for i := 0 to |store.voters|
        invariant |updated| == i
        invariant forall k :: 0 <= k < i ==> updated[k] == store.voters[k].(voted := false)
      {
        updated := updated + [store.voters[i].(voted := false)];
      }
      if !commitSucceeds {
        return Error("Invalid admin password");
      }
      assert updated == ClearedVoters(store.voters);
      store.votes := [];
      store.voters := updated;
      notice := Success("All votes have been reset successfully!");
    }

    /** The image-URL field's input listener: a non-empty typed URL drops
        the held upload, so the typed URL is the one a new candidate gets. */
    method ImageUrlInput(value: string)
      modifies this
      ensures candidateImageData == if value != "" then None else old(candidateImageData)
      ensures value != "" ==> forall url :: CandidateImage(candidateImageData, url) == url
      ensures currentSection == old(currentSection) && initialized == old(initialized)
      ensures setupRuns == old(setupRuns)
    {
      if value != "" {
        candidateImageData := None;
      }
    }

    /** `removeImagePreview`: the held upload is dropped. */
    method RemoveImagePreview()
      modifies this
      ensures candidateImageData.None?
      ensures currentSection == old(currentSection) && initialized == old(initialized)
      ensures setupRuns == old(setupRuns)
    {
      candidateImageData := None;
    }

    /** `handleImageUpload`: no file does nothing; a wrong type or an
        oversized file is refused and leaves the held upload alone; an
        accepted file is uploaded and its URL held when the host returns
        one. */
    method HandleImageUpload(file: Option<ImageFile>, upload: UploadOutcome) returns (notice: Notice)
      modifies this
      ensures currentSection == old(currentSection) && initialized == old(initialized)
      ensures setupRuns == old(setupRuns)
      ensures file.None? ==> notice == NoMessage && candidateImageData == old(candidateImageData)
      ensures file.Some? && ImageError(file.value).Some? ==>
        notice == Error(ImageError(file.value).value) && candidateImageData == old(candidateImageData)
      ensures file.Some? && ImageError(file.value).None? ==>
        match upload
        case Uploaded(url) =>
          if url != "" then notice == NoMessage && candidateImageData == Some(url)
          else notice == Error("Failed to upload image to imgbb.") && candidateImageData == old(candidateImageData)
        case NotUploaded =>
          notice == Error("Failed to upload image to imgbb.") && candidateImageData == old(candidateImageData)
        case UploadThrew(message) =>
          notice == Error("Image upload error: " + message) && candidateImageData == old(candidateImageData)
    {
      if file.None? {
        return NoMessage;
      }
      var rejection := ImageError(file.value);
      if rejection.Some? {
        return Error(rejection.value);
      }
      match upload {
        case Uploaded(url) =>
          if url != "" {
            candidateImageData := Some(url);
            notice := NoMessage;
          } else {
            notice := Error("Failed to upload image to imgbb.");
          }
        case NotUploaded =>
          notice := Error("Failed to upload image to imgbb.");
        case UploadThrew(message) =>
          notice := Error("Image upload error: " + message);
      }
    }
  }
}

=== FILE: analytics.dfy ===
/** The classifications the analytics view of `AdminManager` makes over a
    list of per-post results (admin.js): the margin between the first two
    candidates, competitive races and unopposed races. Each of the first
    two starts by sorting the result's candidate rows in place by
    decreasing vote count; `Array.prototype.sort` is stable, so rows with
    equal counts keep their order. */
module Analytics {
  import opened Common
  import opened Records
  import opened Tally

  // ------------------------------------------------------------------
  // The stable sort by decreasing count
  // ------------------------------------------------------------------

  /** `x` placed into `s` in front of the first row whose count is not
      larger than its own. */
  function InsertByVotes(x: CandidateResult, s: seq<CandidateResult>): (r: seq<CandidateResult>)
    ensures multiset(r) == multiset([x] + s)
    ensures r[0] == x || (s != [] && r[0] == s[0])
  {
    if s == [] || x.votes >= s[0].votes then [x] + s
    else
      assert s == [s[0]] + s[1..];
      [s[0]] + InsertByVotes(x, s[1..])
  }

  /** The rows sorted by decreasing count, rows with equal counts in their
      input order: the comparator `(a, b) => b.votes - a.votes`. */
  function SortByVotes(rows: seq<CandidateResult>): (r: seq<CandidateResult>)
    ensures multiset(r) == multiset(rows)
    ensures |r| == |rows|
  {
    if rows == [] then []
    else
      var r := InsertByVotes(rows[0], SortByVotes(rows[1..]));
      assert rows == [rows[0]] + rows[1..];
      assert |r| == |multiset(r)|;
      r
  }

  /** No row has a larger count than a row before it. */
  predicate DescendingByVotes(s: seq<CandidateResult>) {
    forall i, j :: 0 <= i < j < |s| ==> s[i].votes >= s[j].votes
  }

  /** Inserting into a descending sequence keeps it descending. */
  lemma {:induction false} InsertKeepsDescending(x: CandidateResult, s: seq<CandidateResult>)
    requires DescendingByVotes(s)
    ensures DescendingByVotes(InsertByVotes(x, s))
  {
    if s != [] && x.votes < s[0].votes {
      var tail := s[1..];
      InsertKeepsDescending(x, tail);
      var r := InsertByVotes(x, tail);
      forall e | e in r ensures e.votes <= s[0].votes {
        assert e in multiset(r);
        assert e == x || e in tail;
      }
      assert InsertByVotes(x, s) == [s[0]] + r;
    }
  }

  /** The sort yields rows in decreasing order of count. */
  lemma {:induction false} SortedDescending(rows: seq<CandidateResult>)
    ensures DescendingByVotes(SortByVotes(rows))
  {
    if rows != [] {
      SortedDescending(rows[1..]);
      InsertKeepsDescending(rows[0], SortByVotes(rows[1..]));
    }
  }

  /** The index of the earliest row with the largest count. */
  function FirstMaxIndex(rows: seq<CandidateResult>): (i: nat)
    requires rows != []
    ensures i < |rows| && FirstWith(rows, i, MaxVotes(rows))
  {
    if |rows| == 1 || rows[0].votes >= MaxVotes(rows[1..]) then 0
    else
      var j := FirstMaxIndex(rows[1..]);
      assert forall k :: 0 < k < j + 1 ==> rows[k] == rows[1..][k - 1];
      j + 1
  }

  /** The head of an insertion is the inserted row when its count is at
      least the old head's, and the old head otherwise. */
  lemma InsertHead(x: CandidateResult, s: seq<CandidateResult>)
    ensures InsertByVotes(x, s)[0] == if s == [] || x.votes >= s[0].votes then x else s[0]
  {
  }

  /** Stability at the head: the first sorted row is the earliest row with
      the largest count. */
  lemma {:induction false} SortedHeadAt(rows: seq<CandidateResult>)
    requires rows != []
    ensures SortByVotes(rows)[0] == rows[FirstMaxIndex(rows)]
  {
    var tail := rows[1..];
    if tail != [] {
      SortedHeadAt(tail);
      InsertHead(rows[0], SortByVotes(tail));
    }
  }

  /** Stability at the head, as an existence statement. */
  lemma SortedHeadIsFirstMax(rows: seq<CandidateResult>)
    requires rows != []
    ensures exists i :: 0 <= i < |rows| && FirstWith(rows, i, MaxVotes(rows)) && SortByVotes(rows)[0] == rows[i]
  {
    SortedHeadAt(rows);
  }

  /** The candidate the sort puts first is the leading candidate that
      `fetchResults` reports, whenever there is one. */
  lemma SortedHeadIsLeader(rows: seq<CandidateResult>, leader: Option<Candidate>, v: nat)
    requires IsLeader(rows, leader, v) && v > 0
    ensures SortByVotes(rows)[0].candidate == leader.value
  {
    LeadingVotesIsMaximum(rows, leader, v);
    SortedHeadIsFirstMax(rows);
    var i :| 0 <= i < |rows| && FirstWith(rows, i, v) && leader == Some(rows[i].candidate);
    var j :| 0 <= j < |rows| && FirstWith(rows, j, MaxVotes(rows)) && SortByVotes(rows)[0] == rows[j];
    assert i == j;
  }

  // ------------------------------------------------------------------
  // The classifications
  // ------------------------------------------------------------------

  /** The margin of a sorted list: first count minus second, the first
      count when there is one row, 0 when there is none. */
  function Margin(sorted: seq<CandidateResult>): (m: int)
    ensures DescendingByVotes(sorted) ==> m >= 0
    ensures DescendingByVotes(sorted) && sorted != [] ==> m <= sorted[0].votes
    ensures sorted == [] ==> m == 0
  {
    if |sorted| >= 2 then sorted[0].votes - sorted[1].votes
    else if |sorted| == 1 then sorted[0].votes
    else 0
  }

  /** A race is competitive when it has at least two candidates and the
      first two of the sorted list are at most 2 votes apart. */
  predicate IsCompetitive(sorted: seq<CandidateResult>): (b: bool)
    ensures b ==> |sorted| >= 2 && Margin(sorted) <= 2
    ensures |sorted| >= 2 && Margin(sorted) <= 2 ==> b
  {
    |sorted| > 1 && sorted[0].votes - sorted[1].votes <= 2
  }

  /** The number of rows with a positive count. */
  function PositiveCount(rows: seq<CandidateResult>): (n: nat)
    ensures n <= |rows|
    ensures n == 0 <==> forall i :: 0 <= i < |rows| ==> rows[i].votes == 0
    ensures n <= 1 <==> forall i, j :: 0 <= i < j < |rows| ==> rows[i].votes == 0 || rows[j].votes == 0
  {
    if rows == [] then 0
    else
      var tail := rows[1..];
      assert forall i :: 0 < i < |rows| ==> rows[i] == tail[i - 1];
      (if rows[0].votes > 0 then 1 else 0) + PositiveCount(tail)
  }

  /** A race is unopposed when at most one candidate has a vote. */
  predicate IsUnopposed(rows: seq<CandidateResult>): (b: bool)
    ensures b <==> forall i, j :: 0 <= i < j < |rows| ==> rows[i].votes == 0 || rows[j].votes == 0
    ensures |rows| <= 1 ==> b
  {
    PositiveCount(rows) <= 1
  }

  /** The margin after sorting lies between 0 and the largest count; it is
      0 for two or more candidates exactly when the first two tie. */
  lemma MarginBounds(rows: seq<CandidateResult>)
    ensures 0 <= Margin(SortByVotes(rows)) <= MaxVotes(rows)
    ensures |rows| >= 2 ==>
      (Margin(SortByVotes(rows)) == 0 <==> SortByVotes(rows)[0].votes == SortByVotes(rows)[1].votes)
  {
    var s := SortByVotes(rows);
    SortedDescending(rows);
    if rows != [] {
      SortedHeadIsFirstMax(rows);
    }
  }

  /** Inserting a row does not change how many rows have a vote. */
  lemma {:induction false} InsertKeepsPositiveCount(x: CandidateResult, s: seq<CandidateResult>)
    ensures PositiveCount(InsertByVotes(x, s)) == PositiveCount([x] + s)
  {
    if s != [] && x.votes < s[0].votes {
      InsertKeepsPositiveCount(x, s[1..]);
      assert ([x] + s)[1..] == s;
      assert ([x] + s[1..])[1..] == s[1..];
    }
  }

  /** Sorting does not change how many rows have a vote. */
  lemma {:induction false} SortKeepsPositiveCount(rows: seq<CandidateResult>)
    ensures PositiveCount(SortByVotes(rows)) == PositiveCount(rows)
  {
    if rows != [] {
      SortKeepsPositiveCount(rows[1..]);
      InsertKeepsPositiveCount(rows[0], SortByVotes(rows[1..]));
    }
  }

  /** The unopposed test reads the rows after the competitive test has
      sorted them in place; the reorder does not change its answer. */
  lemma UnopposedIgnoresOrder(rows: seq<CandidateResult>)
    ensures IsUnopposed(SortByVotes(rows)) == IsUnopposed(rows)
  {
    SortKeepsPositiveCount(rows);
  }

  /** In a descending sequence no row has a larger count than the first,
      and none after the first a larger count than the second. */
  lemma DescendingHeads(s: seq<CandidateResult>)
    requires DescendingByVotes(s) && |s| >= 2
    ensures forall x :: x in multiset(s) ==> x.votes <= s[0].votes
    ensures forall x :: x in multiset(s[1..]) ==> x.votes <= s[1].votes
  {
    forall x | x in multiset(s) ensures x.votes <= s[0].votes {
      var k :| 0 <= k < |s| && s[k] == x;
    }
    forall x | x in multiset(s[1..]) ensures x.votes <= s[1].votes {
      var k :| 0 <= k < |s[1..]| && s[1..][k] == x;
      assert s[k + 1] == x;
    }
  }

  /** A non-empty sequence holds its first row and the rows after it. */
  lemma SplitHead(s: seq<CandidateResult>)
    requires s != []
    ensures multiset(s) == multiset{s[0]} + multiset(s[1..])
  {
    assert s == [s[0]] + s[1..];
  }

  /** Two descending orders of the same rows agree on the first two
      counts, whichever of several tied rows each puts first. */
  lemma SameRowsSameHeads(s: seq<CandidateResult>, t: seq<CandidateResult>)
    requires DescendingByVotes(s) && DescendingByVotes(t)
    requires multiset(s) == multiset(t) && |s| >= 2
    ensures |t| >= 2
    ensures s[0].votes == t[0].votes && s[1].votes == t[1].votes
  {
    assert |t| == |multiset(t)| == |multiset(s)| == |s|;
    DescendingHeads(s);
    DescendingHeads(t);
    SplitHead(s);
    SplitHead(t);
    assert s[0] in multiset(t) && t[0] in multiset(s);
    assert s[0].votes == t[0].votes;
    if s[0] == t[0] {
      assert multiset(s[1..]) == multiset(t[1..]);
      assert s[1] in multiset(s[1..]) && t[1] in multiset(t[1..]);
    } else {
      assert t[0] in multiset(s[1..]) && s[0] in multiset(t[1..]);
    }
  }

  /** The competitive verdict depends only on which rows a race has, not on
      the order they come in: it is decided by the two largest counts. */
  lemma CompetitiveIgnoresOrder(a: seq<CandidateResult>, b: seq<CandidateResult>)
    requires multiset(a) == multiset(b)
    ensures IsCompetitive(SortByVotes(a)) == IsCompetitive(SortByVotes(b))
  {
    SortedDescending(a);
    SortedDescending(b);
    var s, t := SortByVotes(a), SortByVotes(b);
    assert |a| == |multiset(a)| == |multiset(b)| == |b|;
    if |s| >= 2 {
      SameRowsSameHeads(s, t);
    }
  }

  // ------------------------------------------------------------------
  // The in-place callers
  // ------------------------------------------------------------------

  /** `result.candidates.sort((a, b) => b.votes - a.votes)` */
  method SortCandidatesInPlace(candidates: array<CandidateResult>)
    modifies candidates
    ensures candidates[..] == SortByVotes(old(candidates[..]))
  {
    var sorted := SortByVotes(candidates[..]);
    forall i | 0 <= i < candidates.Length {
      candidates[i] := sorted[i];
    }
  }

  /** One row of the position performance table: the rows are sorted in
      place, the leader is the first row (absent without candidates) and
      the margin is taken between the first two. */
  method PositionMargin(candidates: array<CandidateResult>) returns (leader: Option<CandidateResult>, margin: int)
    modifies candidates
    ensures candidates[..] == SortByVotes(old(candidates[..]))
    ensures leader == if candidates.Length > 0 then Some(candidates[0]) else None
    ensures margin == Margin(candidates[..])
  {
    SortCandidatesInPlace(candidates);
    leader := if candidates.Length > 0 then Some(candidates[0]) else None;
    var runnerUp: Option<CandidateResult> := if candidates.Length > 1 then Some(candidates[1]) else None;
    margin := if leader.Some? && runnerUp.Some? then leader.value.votes - runnerUp.value.votes
              else if leader.Some? then leader.value.votes
              else 0;
  }

  /** The callback of the competitive-races filter: sorts the rows in place
      and tests the first two. */
  method CompetitiveRace(candidates: array<CandidateResult>) returns (competitive: bool)
    modifies candidates
    ensures candidates[..] == SortByVotes(old(candidates[..]))
    ensures competitive == IsCompetitive(candidates[..])
  {
    SortCandidatesInPlace(candidates);
    competitive := candidates.Length > 1 && candidates[0].votes - candidates[1].votes <= 2;
  }
}

=== FILE: auth.dfy ===
/** `AuthManager` (auth.js): the signed-in user and role, the login form's
    guard and routing, the admin and voter logins and logout. Whether the
    identity provider accepts the admin's e-mail and password is a
    parameter; the voter query is run over the voters collection held in
    memory. */
module Auth {
  import opened Common
  import opened Records

  /** The value of `currentUser`: the admin object `{ username, role }`
      or the voter record the query returned. */
  datatype User = AdminUser(username: string) | VoterUser(voter: Voter)

  /** How a login attempt ends: `handleLogin` returned false after showing
      `message`, the admin login returned true, the voter login returned
      without a value, or an error with `message` was thrown (the form's
      listener shows it). */
  datatype LoginOutcome = Refused(message: string) | AdminSignedIn | VoterSignedIn | Threw(message: string)

  /** The voter query's answer: the admitted record, or the message of
      the error thrown. */
  datatype Admission = Admitted(voter: Voter) | Rejected(message: string)

  /** `v` matches both equality filters of the voter query. */
  predicate Credentials(v: Voter, studentCode: string, password: string) {
    v.studentCode == studentCode && v.password == password
  }

  /** `v` sits at index `i` of `voters`, matches, and no voter before it
      matches. */
  predicate FirstMatchAt(voters: seq<Voter>, studentCode: string, password: string, i: int, v: Voter) {
    && 0 <= i < |voters| && voters[i] == v && Credentials(v, studentCode, password)
    && forall k :: 0 <= k < i ==> !Credentials(voters[k], studentCode, password)
  }

  /** The first document of the query's snapshot: the first voter, in
      collection order, whose student code and password both match. */
  function FirstMatch(voters: seq<Voter>, studentCode: string, password: string): (r: Option<Voter>)
    ensures r.None? <==> forall v :: v in voters ==> !Credentials(v, studentCode, password)
    ensures r.Some? ==> Credentials(r.value, studentCode, password)
    ensures r.Some? ==> exists i :: FirstMatchAt(voters, studentCode, password, i, r.value)
  {
    if voters == [] then None
    else if Credentials(voters[0], studentCode, password) then
      assert FirstMatchAt(voters, studentCode, password, 0, voters[0]);
      Some(voters[0])
    else
      var r := FirstMatch(voters[1..], studentCode, password);
      assert forall v :: v in voters ==> v == voters[0] || v in voters[1..];
      if r.Some? then
        var i :| FirstMatchAt(voters[1..], studentCode, password, i, r.value);
        assert FirstMatchAt(voters, studentCode, password, i + 1, r.value) by {
          forall k | 0 <= k < i + 1 ensures !Credentials(voters[k], studentCode, password) {
            if k > 0 { assert voters[k] == voters[1..][k - 1]; }
          }
        }
        r
      else r
  }

  /** The voter admission rule: no matching record is rejected, a matching
      record that has voted is rejected, any other is admitted. */
  function Admit(voters: seq<Voter>, studentCode: string, password: string): (r: Admission)
    ensures r.Admitted? ==> r.voter in voters && Credentials(r.voter, studentCode, password) && !r.voter.voted
    ensures r == Rejected("Invalid student credentials")
      <==> forall v :: v in voters ==> !Credentials(v, studentCode, password)
    ensures r.Rejected? ==> r.message in {"Invalid student credentials", "You have already voted. You cannot vote again."}
  {
    match FirstMatch(voters, studentCode, password)
    case None => Rejected("Invalid student credentials")
    case Some(v) =>
      if v.voted then Rejected("You have already voted. You cannot vote again.") else Admitted(v)
  }

  /** With unique student codes, which record comes first does not matter:
      a voter is admitted exactly when some record matches and has not
      voted, and then it is that record. */
  lemma UniqueCodesAdmission(voters: seq<Voter>, studentCode: string, password: string)
    requires UniqueStudentCodes(voters)
    ensures Admit(voters, studentCode, password).Admitted?
      <==> exists v :: v in voters && Credentials(v, studentCode, password) && !v.voted
    ensures forall v :: v in voters && Credentials(v, studentCode, password) && !v.voted ==>
      Admit(voters, studentCode, password) == Admitted(v)
  {
    var m := FirstMatch(voters, studentCode, password);
    forall v | v in voters && Credentials(v, studentCode, password)
      ensures m == Some(v)
    {
      var j :| 0 <= j < |voters| && voters[j] == v;
      var i :| FirstMatchAt(voters, studentCode, password, i, m.value);
      assert i == j;
    }
  }

  /** The first match does not depend on the `voted` flags. */
  lemma {:induction false} FirstMatchIgnoresVoted(voters: seq<Voter>, studentCode: string, password: string)
    ensures FirstMatch(ClearedVoters(voters), studentCode, password).Some?
      == FirstMatch(voters, studentCode, password).Some?
  {
    if voters != [] {
      var cleared := ClearedVoters(voters);
      assert cleared[1..] == ClearedVoters(voters[1..]);
      assert cleared[0] == voters[0].(voted := false);
      FirstMatchIgnoresVoted(voters[1..], studentCode, password);
    }
  }

  /** After the votes are reset, every student whose code and password
      match a record is admitted again. */
  lemma ResetReadmits(voters: seq<Voter>, studentCode: string, password: string)
    ensures Admit(ClearedVoters(voters), studentCode, password).Admitted?
      <==> exists v :: v in voters && Credentials(v, studentCode, password)
  {
    FirstMatchIgnoresVoted(voters, studentCode, password);
    var m := FirstMatch(ClearedVoters(voters), studentCode, password);
    if m.Some? {
      var i :| 0 <= i < |voters| && ClearedVoters(voters)[i] == m.value;
      assert !m.value.voted;
    }
  }

  /** The session is empty, or holds an admin with role "admin", or holds
      a voter who had not voted, with role "voter". */
  ghost predicate SessionConsistent(user: Option<User>, role: Option<string>) {
    || (user.None? && role.None?)
    || (user.Some? && user.value.AdminUser? && role == Some("admin"))
    || (user.Some? && user.value.VoterUser? && !user.value.voter.voted && role == Some("voter"))
  }

  class AuthManager {
    var currentUser: Option<User>
    var currentRole: Option<string>

    ghost predicate Valid()
      reads this
    {
      SessionConsistent(currentUser, currentRole)
    }

    constructor()
      ensures Valid()
      ensures currentUser.None? && currentRole.None?
    {
      currentUser := None;
      currentRole := None;
    }

    /** `loginAdmin`: the identity provider's answer decides. */
    method LoginAdmin(username: string, password: string, signInSucceeds: bool) returns (outcome: LoginOutcome)
      requires Valid()
      modifies this
      ensures Valid()
      ensures signInSucceeds ==>
        outcome == AdminSignedIn && currentUser == Some(AdminUser(username)) && currentRole == Some("admin")
      ensures !signInSucceeds ==> outcome == Threw("Invalid admin credentials") && unchanged(this)
    {
      if !signInSucceeds {
        return Threw("Invalid admin credentials");
      }
      currentUser := Some(AdminUser(username));
      currentRole := Some("admin");
      outcome := AdminSignedIn;
    }

    /** `loginVoter`: the admission rule over the voters collection. A
        query the store rejects (`queryError`) throws the store's message
        and changes nothing. */
    method LoginVoter(studentCode: string, password: string, voters: seq<Voter>, queryError: Option<string>)
      returns (outcome: LoginOutcome)
      requires Valid()
      modifies this
      ensures Valid()
      ensures queryError.Some? ==> outcome == Threw(queryError.value) && unchanged(this)
      ensures queryError.None? && Admit(voters, studentCode, password).Admitted? ==>
        && outcome == VoterSignedIn
        && currentUser == Some(VoterUser(Admit(voters, studentCode, password).voter))
        && currentRole == Some("voter")
      ensures queryError.None? && Admit(voters, studentCode, password).Rejected? ==>
        outcome == Threw(Admit(voters, studentCode, password).message) && unchanged(this)
    {
      if queryError.Some? {
        return Threw(queryError.value);
      }
      match Admit(voters, studentCode, password)
      case Rejected(message) =>
        outcome := Threw(message);
      case Admitted(voter) =>
        currentUser := Some(VoterUser(voter));
        currentRole := Some("voter");
        outcome := VoterSignedIn;
    }

    /** `handleLogin`: both trimmed fields must be non-empty; the role
      "admin" goes to the admin login and every other role to the voter
      login, with the trimmed username as the student code. */
    method HandleLogin(usernameField: string, passwordField: string, role: string,
                       adminSignInSucceeds: bool, voters: seq<Voter>, queryError: Option<string>)
      returns (outcome: LoginOutcome)
      requires Valid()
      modifies this
      ensures Valid()
      ensures Trim(usernameField) == "" || Trim(passwordField) == "" ==>
        outcome == Refused("Please enter both username and password") && unchanged(this)
      ensures Trim(usernameField) != "" && Trim(passwordField) != "" && role == "admin" ==>
        if adminSignInSucceeds then
          && outcome == AdminSignedIn
          && currentUser == Some(AdminUser(Trim(usernameField))) && currentRole == Some("admin")
        else outcome == Threw("Invalid admin credentials") && unchanged(this)
      ensures Trim(usernameField) != "" && Trim(passwordField) != "" && role != "admin" && queryError.Some? ==>
        outcome == Threw(queryError.value) && unchanged(this)
      ensures Trim(usernameField) != "" && Trim(passwordField) != "" && role != "admin" && queryError.None? ==>
        match Admit(voters, Trim(usernameField), Trim(passwordField))
        case Admitted(v) =>
          outcome == VoterSignedIn && currentUser == Some(VoterUser(v)) && currentRole == Some("voter")
        case Rejected(message) =>
          outcome == Threw(message) && unchanged(this)
    {
      var username := Trim(usernameField);
      var password := Trim(passwordField);
      if !Truthy(username) || !Truthy(password) {
        return Refused("Please enter both username and password");
      }
      if role == "admin" {
        outcome := LoginAdmin(username, password, adminSignInSucceeds);
      } else {
        outcome := LoginVoter(username, password, voters, queryError);
      }
    }

    /** `logout`: the session is emptied. */
    method Logout()
      modifies this
      ensures Valid()
      ensures currentUser.None? && currentRole.None?
    {
      currentUser := None;
      currentRole := None;
    }

    /** `isLoggedIn`: in a consistent session, a user is held exactly when
        a role is. */
    function IsLoggedIn(): (b: bool)
      reads this
      ensures Valid() ==> (b <==> currentRole.Some?)
    {
      currentUser.Some?
    }

    /** `isAdmin`: never together with `isVoter`; in a consistent session
        the user is then the admin. */
    function IsAdmin(): (b: bool)
      reads this
      ensures b ==> !IsVoter()
      ensures Valid() && b ==> IsLoggedIn() && currentUser.value.AdminUser?
    {
      currentRole == Some("admin")
    }

    /** `isVoter`: in a consistent session the user is then a voter record
        that had not voted when admitted. */
    function IsVoter(): (b: bool)
      reads this
      ensures Valid() && b ==> IsLoggedIn() && currentUser.value.VoterUser? && !currentUser.value.voter.voted
    {
      currentRole == Some("voter")
    }
  }
}

=== FILE: common.dfy ===
/** Value types and string helpers shared by the rest of the model: an
    optional value standing for JavaScript's `null`, JavaScript truthiness
    of strings, and the two string methods the core relies on
    (`startsWith` and `trim`). */
module Common {

  /** A value that may be absent (`null` or `undefined` in the source). */
  datatype Option<+T> = None | Some(value: T)

  /** A string is truthy in JavaScript exactly when it is not empty. */
  predicate Truthy(s: string) {
    s != ""
  }

  /** An optional string is truthy when it is present and not empty. */
  predicate TruthyOpt(o: Option<string>) {
    o.Some? && o.value != ""
  }

  /** `s.startsWith(prefix)` */
  predicate StartsWith(s: string, prefix: string) {
    |prefix| <= |s| && s[..|prefix|] == prefix
  }

  /** The characters `String.prototype.trim` removes: the ECMAScript
      WhiteSpace code points (tab, vertical tab, form feed, space,
      no-break space, byte order mark and the Unicode space separators)
      and the LineTerminator code points. */
  predicate IsJsSpace(c: char) {
    c == '\t' || c == '\n' || c == '\r' || c == ' '
    || c == '\U{000B}' || c == '\U{000C}' || c == '\U{00A0}' || c == '\U{FEFF}'
    || c == '\U{1680}' || ('\U{2000}' <= c <= '\U{200A}')
    || c == '\U{2028}' || c == '\U{2029}' || c == '\U{202F}' || c == '\U{205F}'
    || c == '\U{3000}'
  }

  /** Leading white space removed: the result is the longest suffix of `s`
      that does not start with white space, and everything dropped is
      white space. */
  function TrimStart(s: string): (r: string)
    ensures |r| <= |s| && r == s[|s| - |r|..]
    ensures r != [] ==> !IsJsSpace(r[0])
    ensures forall i :: 0 <= i < |s| - |r| ==> IsJsSpace(s[i])
  {
    if s != [] && IsJsSpace(s[0]) then TrimStart(s[1..]) else s
  }

  /** Trailing white space removed, symmetrically to TrimStart. */
  function TrimEnd(s: string): (r: string)
    ensures |r| <= |s| && r == s[..|r|]
    ensures r != [] ==> !IsJsSpace(r[|r| - 1])
    ensures forall i :: |r| <= i < |s| ==> IsJsSpace(s[i])
  {
    if s != [] && IsJsSpace(s[|s| - 1]) then TrimEnd(s[..|s| - 1]) else s
  }

  /** `s.trim()` */
  function Trim(s: string): (r: string)
    ensures |r| <= |s|
    ensures r != [] ==> !IsJsSpace(r[0]) && !IsJsSpace(r[|r| - 1])
  {
    TrimEnd(TrimStart(s))
  }

  /** A string trims to the empty string exactly when every character of it
      is white space. */
  lemma TrimEmptyIff(s: string)
    ensures Trim(s) == "" <==> forall i :: 0 <= i < |s| ==> IsJsSpace(s[i])
  {
    var t := TrimStart(s);
    if t != [] {
      assert t[0] == s[|s| - |t|];
    }
  }
}

=== FILE: quotes.dfy ===
/** `QuotesManager` (quotes.js): the rotating quote on the login page.
    Timers are modelled by their ids: the caller passes the id the
    interval timer gets, and `liveTimers` holds the ids of the interval
    timers started and not yet cleared. `shownQuote` is the index last
    passed to `displayQuote`. */
module Quotes {
  import opened Common

  datatype Quote = Quote(text: string, author: string)

  /** The fifteen quotes the manager starts with. */
  const DefaultQuotes: seq<Quote> := [
    Quote("Democracy is not just the right to vote, it is the right to live in dignity.", "Naomi Klein"),
    Quote("The vote is the most powerful instrument ever devised by man for breaking down injustice.", "Lyndon B. Johnson"),
    Quote("Your vote is your voice. Use it wisely.", "Student Council Motto"),
    Quote("Democracy is not a spectator sport. It requires the active participation of all citizens.", "Robert Kennedy"),
    Quote("The best way to take control over a people and control them utterly is to take a little of their freedom at a time.",
          "Adolf Hitler (Negative Example)"),
    Quote("Every vote matters. Every voice counts. Make yours heard.", "Election Commission"),
    Quote("In a democracy, the individual enjoys not only the ultimate power but carries the ultimate responsibility.",
          "Norman Cousins"),
    Quote("The ballot is stronger than the bullet.", "Abraham Lincoln"),
    Quote("Democracy is the government of the people, by the people, for the people.", "Abraham Lincoln"),
    Quote("A vote is like a rifle: its usefulness depends upon the character of the user.", "Theodore Roosevelt"),
    Quote("The price of freedom is eternal vigilance. Vote responsibly.", "Thomas Jefferson (Adapted)"),
    Quote("Your voice, your choice, your future. Exercise your right to vote.", "Civic Education"),
    Quote("Democracy cannot succeed unless those who express their choice are prepared to choose wisely.",
          "Franklin D. Roosevelt"),
    Quote("Voting is not only our right\U{2014}it is our power.", "Loung Ung"),
    Quote("The future belongs to those who participate in shaping it today.", "Student Leadership")
  ]

  // ------------------------------------------------------------------
  // The rotation as a function of the index
  // ------------------------------------------------------------------

  /** The index after one rotation over `n` quotes: one further on,
      wrapping to 0 past the last. */
  function NextIndex(i: nat, n: nat): (r: nat)
    requires i < n
    ensures r < n
    ensures r == (i + 1) % n
  {
    if i + 1 == n then 0 else i + 1
  }

  /** The index after `k` rotations from `i`. */
  function Rotated(i: nat, n: nat, k: nat): (r: nat)
    requires i < n
    ensures r < n
  {
    if k == 0 then i else NextIndex(Rotated(i, n, k - 1), n)
  }

  /** Up to `n` rotations move the index forward by `k`, wrapping once. */
  lemma {:induction false} RotatedClosedForm(i: nat, n: nat, k: nat)
    requires i < n && k <= n
    ensures Rotated(i, n, k) == if i + k < n then i + k else i + k - n
  {
    if k > 0 {
      RotatedClosedForm(i, n, k - 1);
    }
  }

  /** How many rotations lead from index `i` to index `j`, counting a
      full turn when `j` is `i`. */
  function StepsTo(i: nat, j: nat, n: nat): nat
    requires i < n && j < n
  {
    if j > i then j - i else j + n - i
  }

  /** `n` rotations bring the index back to where it started, and on the
      way every index is reached by exactly one of them. */
  lemma RotationCycle(i: nat, n: nat)
    requires i < n
    ensures Rotated(i, n, n) == i
    ensures forall j :: 0 <= j < n ==> 1 <= StepsTo(i, j, n) <= n && Rotated(i, n, StepsTo(i, j, n)) == j
    ensures forall k1, k2 :: 1 <= k1 < k2 <= n ==> Rotated(i, n, k1) != Rotated(i, n, k2)
  {
    RotatedClosedForm(i, n, n);
    forall j | 0 <= j < n ensures 1 <= StepsTo(i, j, n) <= n && Rotated(i, n, StepsTo(i, j, n)) == j {
      RotatedClosedForm(i, n, StepsTo(i, j, n));
    }
    forall k1, k2 | 1 <= k1 < k2 <= n ensures Rotated(i, n, k1) != Rotated(i, n, k2) {
      RotatedClosedForm(i, n, k1);
      RotatedClosedForm(i, n, k2);
    }
  }

  // ------------------------------------------------------------------
  // The manager
  // ------------------------------------------------------------------

  class QuotesManager {
    var quotes: seq<Quote>
    var currentQuoteIndex: nat
    var quoteInterval: Option<nat>
    var isLoginPage: bool
    var shownQuote: Option<nat>
    var liveTimers: set<nat>

    /** The quotes are never empty, the index stays among them, and a held
        interval is one still running. */
    ghost predicate Valid()
      reads this
    {
      && |quotes| > 0
      && currentQuoteIndex < |quotes|
      && (quoteInterval.Some? ==> quoteInterval.value in liveTimers)
    }

    constructor()
      ensures Valid()
      ensures quotes == DefaultQuotes && currentQuoteIndex == 0
      ensures quoteInterval.None? && !isLoginPage
      ensures shownQuote.None? && liveTimers == {}
    {
      quotes := DefaultQuotes;
      currentQuoteIndex := 0;
      quoteInterval := None;
      isLoginPage := false;
      shownQuote := None;
      liveTimers := {};
    }

    /** `startQuoteRotation`: off the login page, or without the quote
        element, nothing happens; otherwise quote 0 is shown, the index is
        left as it is, and a new interval timer `timerId` (a browser timer
        id, positive and not in use) is started and held. A timer held
        before is not cleared: it keeps running. */
    method StartQuoteRotation(quoteDisplayPresent: bool, timerId: nat)
      requires Valid() && timerId > 0 && timerId !in liveTimers
      modifies this
      ensures Valid()
      ensures quotes == old(quotes) && currentQuoteIndex == old(currentQuoteIndex)
      ensures isLoginPage == old(isLoginPage)
      ensures !isLoginPage || !quoteDisplayPresent ==> unchanged(this)
      ensures isLoginPage && quoteDisplayPresent ==>
        && shownQuote == Some(0)
        && quoteInterval == Some(timerId)
        && liveTimers == old(liveTimers) + {timerId}
    {
      if !isLoginPage {
        return;
      }
      if !quoteDisplayPresent {
        return;
      }
      shownQuote := Some(0);
      quoteInterval := Some(timerId);
      liveTimers := liveTimers + {timerId};
    }

    /** `init`: the login page must be active and the quote element
        present; then the manager marks itself on the login page and starts
        the rotation. */
    method Init(loginPageActive: bool, quoteDisplayPresent: bool, timerId: nat)
      requires Valid() && timerId > 0 && timerId !in liveTimers
      modifies this
      ensures Valid()
      ensures quotes == old(quotes) && currentQuoteIndex == old(currentQuoteIndex)
      ensures !(loginPageActive && quoteDisplayPresent) ==> unchanged(this)
      ensures loginPageActive && quoteDisplayPresent ==>
        && isLoginPage
        && shownQuote == Some(0)
        && quoteInterval == Some(timerId)
        && liveTimers == old(liveTimers) + {timerId}
    {
      if loginPageActive && quoteDisplayPresent {
        isLoginPage := true;
        StartQuoteRotation(quoteDisplayPresent, timerId);
      }
    }

    /** `rotateQuote`: the index moves one on, wrapping past the last
        quote, and that quote is shown. */
    method RotateQuote()
      requires Valid()
      modifies this
      ensures Valid()
      ensures quotes == old(quotes)
      ensures currentQuoteIndex == (old(currentQuoteIndex) + 1) % |quotes|
      ensures currentQuoteIndex == Rotated(old(currentQuoteIndex), |quotes|, 1)
      ensures shownQuote == Some(currentQuoteIndex)
      ensures quoteInterval == old(quoteInterval)
      ensures isLoginPage == old(isLoginPage) && liveTimers == old(liveTimers)
    {
      currentQuoteIndex := (currentQuoteIndex + 1) % |quotes|;
      shownQuote := Some(currentQuoteIndex);
    }

    /** `stopQuoteRotation`: a held interval is cleared and dropped; with
        none held nothing changes, so a second call is a no-op. */
    method StopQuoteRotation()
      requires Valid()
      modifies this
      ensures Valid()
      ensures quoteInterval.None?
      ensures old(quoteInterval).None? ==> unchanged(this)
      ensures old(quoteInterval).Some? ==> liveTimers == old(liveTimers) - {old(quoteInterval).value}
      ensures quotes == old(quotes) && currentQuoteIndex == old(currentQuoteIndex)
      ensures isLoginPage == old(isLoginPage) && shownQuote == old(shownQuote)
    {
      if quoteInterval.Some? {
        liveTimers := liveTimers - {quoteInterval.value};
        quoteInterval := None;
      }
    }

    /** `destroy`: the rotation is stopped and the manager is no longer on
        the login page. */
    method Destroy()
      requires Valid()
      modifies this
      ensures Valid()
      ensures quoteInterval.None? && !isLoginPage
      ensures liveTimers == if old(quoteInterval).Some? then old(liveTimers) - {old(quoteInterval).value}
                            else old(liveTimers)
      ensures quotes == old(quotes) && currentQuoteIndex == old(currentQuoteIndex)
      ensures shownQuote == old(shownQuote)
    {
      StopQuoteRotation();
      isLoginPage := false;
    }
  }
}

=== FILE: records.dfy ===
/** The documents of the four remote collections (`posts`, `candidates`,
    `voters`, `votes`), each as the fields the core reads. A collection is
    a sequence of documents in the order the store returns them. */
module Records {

  /** An electable position. */
  datatype Post = Post(id: string, title: string, description: string)

  /** A person standing for the post `postId`. `image` and `bio` are the
      empty string when the form left them blank. */
  datatype Candidate = Candidate(
    id: string, postId: string, name: string, slogan: string, image: string, bio: string)

  /** One submitted ballot: its `votes` field maps a post id to the id of
      the chosen candidate. A ballot without a `votes` field is the empty
      map. */
  datatype Ballot = Ballot(votes: map<string, string>)

  /** A registered student voter. */
  datatype Voter = Voter(id: string, name: string, studentCode: string, password: string, voted: bool)

  /** The ids of a sequence of candidates. */
  function CandidateIds(cs: seq<Candidate>): set<string> {
    set c | c in cs :: c.id
  }

  /** No two documents of a candidate sequence share an id (what a document
      store guarantees for one collection). */
  predicate UniqueIds(cs: seq<Candidate>) {
    forall i, j :: 0 <= i < j < |cs| ==> cs[i].id != cs[j].id
  }

  /** No two voters share a student code. */
  predicate UniqueStudentCodes(voters: seq<Voter>) {
    forall i, j :: 0 <= i < j < |voters| ==> voters[i].studentCode != voters[j].studentCode
  }

  /** The voters with every `voted` flag cleared and every other field as
      it was. */
  function ClearedVoters(voters: seq<Voter>): (r: seq<Voter>)
    ensures |r| == |voters|
    ensures forall i :: 0 <= i < |r| ==> !r[i].voted
    ensures forall i :: 0 <= i < |r| ==> r[i] == voters[i].(voted := false)
  {
    seq(|voters|, i requires 0 <= i < |voters| => voters[i].(voted := false))
  }
}

=== FILE: tally.dfy ===
/** The vote-tally aggregation of `fetchResults` (admin.js): given the
    posts, the candidates and the submitted ballots, one result per post
    that lists the post's candidates with their vote counts, the total of
    those counts and the leading candidate. The fetches that produce the
    three inputs are outside the model; the inputs are parameters. */
module Tally {
  import opened Common
  import opened Records

  /** A candidate annotated with its vote count (`{ ...c, votes }`). */
  datatype CandidateResult = CandidateResult(candidate: Candidate, votes: nat)

  /** The result object built for one post. */
  datatype PostResult = PostResult(
    post: Post,
    candidates: seq<CandidateResult>,
    totalVotes: nat,
    leadingCandidate: Option<Candidate>,
    leadingVotes: nat)

  // ------------------------------------------------------------------
  // Specification functions
  // ------------------------------------------------------------------

  /** The candidates standing for `postId`, in input order. */
  function PostCandidates(candidates: seq<Candidate>, postId: string): (r: seq<Candidate>)
    ensures |r| <= |candidates|
    ensures forall c :: c in r <==> c in candidates && c.postId == postId
  {
    if candidates == [] then []
    else if candidates[0].postId == postId then [candidates[0]] + PostCandidates(candidates[1..], postId)
    else PostCandidates(candidates[1..], postId)
  }

  /** The candidate id a ballot names for `postId`; a missing or empty
      selection is no selection. */
  function Selection(b: Ballot, postId: string): (r: Option<string>)
    ensures r.Some? ==> postId in b.votes && b.votes[postId] == r.value && r.value != ""
    ensures r.None? <==> postId !in b.votes || b.votes[postId] == ""
  {
    if postId in b.votes && Truthy(b.votes[postId]) then Some(b.votes[postId]) else None
  }

  /** The number of ballots that name `candidateId` for `postId`. */
  function VoteCount(ballots: seq<Ballot>, postId: string, candidateId: string): (n: nat)
    ensures n <= |ballots|
  {
    if ballots == [] then 0
    else
      VoteCount(ballots[..|ballots| - 1], postId, candidateId)
      + (if Selection(ballots[|ballots| - 1], postId) == Some(candidateId) then 1 else 0)
  }

  /** The number of ballots whose selection for `postId` names one of `ids`. */
  function ValidBallots(ballots: seq<Ballot>, postId: string, ids: set<string>): (n: nat)
    ensures n <= |ballots|
  {
    if ballots == [] then 0
    else
      var sel := Selection(ballots[|ballots| - 1], postId);
      ValidBallots(ballots[..|ballots| - 1], postId, ids) + (if sel.Some? && sel.value in ids then 1 else 0)
  }

  /** Each candidate of `pc`, in order, annotated with its vote count. */
  function TallyRows(pc: seq<Candidate>, ballots: seq<Ballot>, postId: string): (rows: seq<CandidateResult>)
    ensures |rows| == |pc|
    ensures forall k :: 0 <= k < |pc| ==>
      rows[k] == CandidateResult(pc[k], VoteCount(ballots, postId, pc[k].id))
  {
    if pc == [] then []
    else [CandidateResult(pc[0], VoteCount(ballots, postId, pc[0].id))] + TallyRows(pc[1..], ballots, postId)
  }

  /** The sum of the counts of `rows`. */
  function SumVotes(rows: seq<CandidateResult>): (n: nat)
    ensures forall k :: 0 <= k < |rows| ==> rows[k].votes <= n
    ensures n == 0 <==> forall k :: 0 <= k < |rows| ==> rows[k].votes == 0
  {
    if rows == [] then 0 else rows[0].votes + SumVotes(rows[1..])
  }

  /** The ids of `cs`, in order: the keys of a counter dictionary built
      from `cs` in insertion order, when the ids are distinct. */
  function IdsInOrder(cs: seq<Candidate>): (ids: seq<string>)
    ensures |ids| == |cs|
    ensures forall k :: 0 <= k < |cs| ==> ids[k] == cs[k].id
  {
    if cs == [] then [] else [cs[0].id] + IdsInOrder(cs[1..])
  }

  /** `Object.values(d).reduce((a, b) => a + b, 0)` for a dictionary whose
      keys, in insertion order, are `keys`. */
  function ValuesSum(keys: seq<string>, d: map<string, nat>): nat
    requires forall k :: 0 <= k < |keys| ==> keys[k] in d
  {
    if keys == [] then 0 else d[keys[0]] + ValuesSum(keys[1..], d)
  }

  /** The largest count of `rows`, 0 when there are no rows. */
  function MaxVotes(rows: seq<CandidateResult>): (m: nat)
    ensures forall k :: 0 <= k < |rows| ==> rows[k].votes <= m
    ensures rows == [] ==> m == 0
    ensures rows != [] ==> exists k :: 0 <= k < |rows| && rows[k].votes == m
  {
    if rows == [] then 0
    else
      var rest := MaxVotes(rows[1..]);
      if rows[0].votes >= rest then rows[0].votes else rest
  }

  /** Row `i` is the first row whose count is `v`. */
  predicate FirstWith(rows: seq<CandidateResult>, i: nat, v: nat)
    requires i < |rows|
  {
    rows[i].votes == v && forall k :: 0 <= k < i ==> rows[k].votes < v
  }

  /** `leader` and `v` are what a strictly-greater scan from 0 finds: `v`
      bounds every count, there is no leader exactly when `v` is 0, and
      otherwise the leader is the earliest row whose count is `v`. */
  ghost predicate IsLeader(rows: seq<CandidateResult>, leader: Option<Candidate>, v: nat) {
    && (forall k :: 0 <= k < |rows| ==> rows[k].votes <= v)
    && (leader.None? <==> v == 0)
    && (v > 0 ==> exists i :: 0 <= i < |rows| && FirstWith(rows, i, v) && leader == Some(rows[i].candidate))
  }

  /** What the result for `post` must be. */
  ghost predicate IsPostResult(r: PostResult, post: Post, candidates: seq<Candidate>, ballots: seq<Ballot>) {
    var pc := PostCandidates(candidates, post.id);
    && r.post == post
    && r.candidates == TallyRows(pc, ballots, post.id)
    && r.totalVotes == SumVotes(r.candidates)
    && r.totalVotes == ValidBallots(ballots, post.id, CandidateIds(pc))
    && IsLeader(r.candidates, r.leadingCandidate, r.leadingVotes)
  }

  // ------------------------------------------------------------------
  // The aggregation
  // ------------------------------------------------------------------

  /** The counter dictionary `candidateVotes`: a counter per candidate id
      of the post, started at 0, raised by one for every ballot whose
      selection for the post is a truthy key of the dictionary. */
  method CountVotes(postCandidates: seq<Candidate>, ballots: seq<Ballot>, postId: string)
    returns (candidateVotes: map<string, nat>)
    ensures candidateVotes.Keys == CandidateIds(postCandidates)
    ensures forall id :: id in candidateVotes ==> candidateVotes[id] == VoteCount(ballots, postId, id)
  {
    candidateVotes := map[];
    for i := 0 to |postCandidates|
      invariant candidateVotes.Keys == CandidateIds(postCandidates[..i])
      invariant forall id :: id in candidateVotes ==> candidateVotes[id] == 0
    {
      assert postCandidates[..i + 1] == postCandidates[..i] + [postCandidates[i]];
      candidateVotes := candidateVotes[postCandidates[i].id := 0];
    }
    assert postCandidates[..|postCandidates|] == postCandidates;
    for j := 0 to |ballots|
      invariant candidateVotes.Keys == CandidateIds(postCandidates)
      invariant forall id :: id in candidateVotes ==> candidateVotes[id] == VoteCount(ballots[..j], postId, id)
    {
      assert ballots[..j + 1][..j] == ballots[..j];
      var vote := ballots[j];
      if postId in vote.votes && vote.votes[postId] != "" {
        var candidateId := vote.votes[postId];
        if candidateId in candidateVotes {
          candidateVotes := candidateVotes[candidateId := candidateVotes[candidateId] + 1];
        }
      }
    }
    assert ballots[..|ballots|] == ballots;
  }

  /** The leader scan: `leadingVotes` starts at 0 and is replaced only by a
      strictly greater count, together with `leadingCandidate`. */
  method FindLeader(rows: seq<CandidateResult>) returns (leadingCandidate: Option<Candidate>, leadingVotes: nat)
    ensures IsLeader(rows, leadingCandidate, leadingVotes)
  {
    leadingCandidate, leadingVotes := None, 0;
    ghost var at := 0;
    for k := 0 to |rows|
      invariant forall m :: 0 <= m < k ==> rows[m].votes <= leadingVotes
      invariant leadingCandidate.None? <==> leadingVotes == 0
      invariant leadingVotes > 0 ==>
        at < k && FirstWith(rows, at, leadingVotes) && leadingCandidate == Some(rows[at].candidate)
    {
      if rows[k].votes > leadingVotes {
        leadingVotes := rows[k].votes;
        leadingCandidate := Some(rows[k].candidate);
        at := k;
      }
    }
  }

  /** The callback of `posts.map` in `fetchResults`: the post's candidates,
      their counters, the rows annotated with the counts, the total and the
      leader. */
  method TallyPost(post: Post, candidates: seq<Candidate>, ballots: seq<Ballot>) returns (r: PostResult)
    requires UniqueIds(candidates)
    ensures IsPostResult(r, post, candidates, ballots)
  {
    var postCandidates := PostCandidates(candidates, post.id);
    var candidateVotes := CountVotes(postCandidates, ballots, post.id);
    var rows := seq(|postCandidates|, k requires 0 <= k < |postCandidates| =>
      CandidateResult(postCandidates[k], candidateVotes[postCandidates[k].id]));
    assert rows == TallyRows(postCandidates, ballots, post.id);
    var leadingCandidate, leadingVotes := FindLeader(rows);
    // The post's candidate ids are distinct, so the dictionary's keys in
    // insertion order are their ids in order.
    PostCandidatesUnique(candidates, post.id);
    var keys := IdsInOrder(postCandidates);
    var totalVotes := ValuesSum(keys, candidateVotes);
    ValuesSumIsRowSum(postCandidates, ballots, post.id, candidateVotes);
    TotalCountsValidBallots(postCandidates, ballots, post.id);
    r := PostResult(post, rows, totalVotes, leadingCandidate, leadingVotes);
  }

  /** `fetchResults` once its three collections are fetched: one result per
      post, in post order. */
  method FetchResults(posts: seq<Post>, candidates: seq<Candidate>, ballots: seq<Ballot>)
    returns (results: seq<PostResult>)
    requires UniqueIds(candidates)
    ensures |results| == |posts|
    ensures forall i :: 0 <= i < |posts| ==> IsPostResult(results[i], posts[i], candidates, ballots)
  {
    results := [];
    for i := 0 to |posts|
      invariant |results| == i
      invariant forall k :: 0 <= k < i ==> IsPostResult(results[k], posts[k], candidates, ballots)
    {
      var r := TallyPost(posts[i], candidates, ballots);
      results := results + [r];
    }
  }

  // ------------------------------------------------------------------
  // Properties of the specification
  // ------------------------------------------------------------------

  /** Filtering keeps ids distinct. */
  lemma {:induction false} PostCandidatesUnique(candidates: seq<Candidate>, postId: string)
    requires UniqueIds(candidates)
    ensures UniqueIds(PostCandidates(candidates, postId))
  {
    if candidates != [] {
      var tail := candidates[1..];
      assert UniqueIds(tail) by {
        forall i, j | 0 <= i < j < |tail| ensures tail[i].id != tail[j].id {
          assert tail[i] == candidates[i + 1] && tail[j] == candidates[j + 1];
        }
      }
      PostCandidatesUnique(tail, postId);
      var rest := PostCandidates(tail, postId);
      if candidates[0].postId == postId {
        forall c | c in rest ensures c.id != candidates[0].id {
          var k :| 0 <= k < |tail| && tail[k] == c;
          assert candidates[k + 1] == c;
        }
      }
    }
  }

  /** Filtering keeps input order: a candidate added at the end of the
      collection lands at the end of its post's list, after the earlier ones. */
  lemma {:induction false} PostCandidatesAppend(candidates: seq<Candidate>, c: Candidate, postId: string)
    ensures PostCandidates(candidates + [c], postId)
         == PostCandidates(candidates, postId) + (if c.postId == postId then [c] else [])
  {
    if candidates != [] {
      assert (candidates + [c])[1..] == candidates[1..] + [c];
      PostCandidatesAppend(candidates[1..], c, postId);
    }
  }

  /** Summing the counter dictionary over its keys gives the sum of the
      rows built from it. */
  lemma {:induction false} ValuesSumIsRowSum(pc: seq<Candidate>, ballots: seq<Ballot>, postId: string,
                                             d: map<string, nat>)
    requires forall k :: 0 <= k < |pc| ==> pc[k].id in d && d[pc[k].id] == VoteCount(ballots, postId, pc[k].id)
    ensures ValuesSum(IdsInOrder(pc), d) == SumVotes(TallyRows(pc, ballots, postId))
  {
    if pc != [] {
      var tail := pc[1..];
      assert IdsInOrder(pc)[1..] == IdsInOrder(tail);
      ValuesSumIsRowSum(tail, ballots, postId, d);
    }
  }

  /** How many candidates of `pc` a single ballot names for `postId`. */
  function Hits(pc: seq<Candidate>, b: Ballot, postId: string): nat {
    if pc == [] then 0
    else (if Selection(b, postId) == Some(pc[0].id) then 1 else 0) + Hits(pc[1..], b, postId)
  }

  /** With distinct ids a ballot names at most one candidate of the post. */
  lemma {:induction false} HitsAtMostOne(pc: seq<Candidate>, b: Ballot, postId: string)
    requires UniqueIds(pc)
    ensures var sel := Selection(b, postId);
      Hits(pc, b, postId) == if sel.Some? && sel.value in CandidateIds(pc) then 1 else 0
  {
    if pc != [] {
      var tail := pc[1..];
      assert UniqueIds(tail) by {
        forall i, j | 0 <= i < j < |tail| ensures tail[i].id != tail[j].id {
          assert tail[i] == pc[i + 1] && tail[j] == pc[j + 1];
        }
      }
      HitsAtMostOne(tail, b, postId);
      assert CandidateIds(pc) == {pc[0].id} + CandidateIds(tail) by {
        assert forall c :: c in pc <==> c == pc[0] || c in tail;
      }
      assert pc[0].id !in CandidateIds(tail) by {
        forall c | c in tail ensures c.id != pc[0].id {
          var k :| 0 <= k < |tail| && tail[k] == c;
          assert pc[k + 1] == c;
        }
      }
    }
  }

  /** One more ballot raises the sum of the post's counts by the number of
      candidates it names. */
  lemma {:induction false} SumStep(pc: seq<Candidate>, ballots: seq<Ballot>, b: Ballot, postId: string)
    ensures SumVotes(TallyRows(pc, ballots + [b], postId))
         == SumVotes(TallyRows(pc, ballots, postId)) + Hits(pc, b, postId)
  {
    if pc != [] {
      SumStep(pc[1..], ballots, b, postId);
      assert (ballots + [b])[..|ballots|] == ballots;
    }
  }

  /** Without ballots every count, and so the sum, is 0. */
  lemma {:induction false} SumWithoutBallots(pc: seq<Candidate>, postId: string)
    ensures SumVotes(TallyRows(pc, [], postId)) == 0
  {
    if pc != [] {
      SumWithoutBallots(pc[1..], postId);
    }
  }

  /** Conservation: the sum of a post's counts is the number of ballots
      whose selection for the post names one of its candidates. */
  lemma {:induction false} TotalCountsValidBallots(pc: seq<Candidate>, ballots: seq<Ballot>, postId: string)
    requires UniqueIds(pc)
    ensures SumVotes(TallyRows(pc, ballots, postId)) == ValidBallots(ballots, postId, CandidateIds(pc))
  {
    if ballots == [] {
      SumWithoutBallots(pc, postId);
    } else {
      var init, last := ballots[..|ballots| - 1], ballots[|ballots| - 1];
      assert ballots == init + [last];
      TotalCountsValidBallots(pc, init, postId);
      SumStep(pc, init, last, postId);
      HitsAtMostOne(pc, last, postId);
    }
  }

  /** Every count and the total are bounded by the number of ballots. */
  lemma TotalAtMostBallots(r: PostResult, post: Post, candidates: seq<Candidate>, ballots: seq<Ballot>)
    requires IsPostResult(r, post, candidates, ballots)
    ensures r.totalVotes <= |ballots|
    ensures forall k :: 0 <= k < |r.candidates| ==> r.candidates[k].votes <= |ballots|
  {
  }

  /** The leading count is the largest count (0 when there is no candidate). */
  lemma LeadingVotesIsMaximum(rows: seq<CandidateResult>, leader: Option<Candidate>, v: nat)
    requires IsLeader(rows, leader, v)
    ensures v == MaxVotes(rows)
  {
    if v > 0 {
      var i :| 0 <= i < |rows| && FirstWith(rows, i, v) && leader == Some(rows[i].candidate);
      assert rows[i].votes <= MaxVotes(rows);
    }
  }

  /** The leader specification admits one answer only, so a tie goes to
      the earliest candidate and to no other. */
  lemma LeaderDetermined(rows: seq<CandidateResult>, l1: Option<Candidate>, v1: nat, l2: Option<Candidate>, v2: nat)
    requires IsLeader(rows, l1, v1) && IsLeader(rows, l2, v2)
    ensures l1 == l2 && v1 == v2
  {
    LeadingVotesIsMaximum(rows, l1, v1);
    LeadingVotesIsMaximum(rows, l2, v2);
    if v1 > 0 {
      var i1 :| 0 <= i1 < |rows| && FirstWith(rows, i1, v1) && l1 == Some(rows[i1].candidate);
      var i2 :| 0 <= i2 < |rows| && FirstWith(rows, i2, v2) && l2 == Some(rows[i2].candidate);
      assert i1 == i2;
    }
  }

  /** A ballot whose selection for the post names none of its candidates
      (none, empty, unknown or another post's candidate) changes no count. */
  lemma ForeignSelectionIgnored(pc: seq<Candidate>, ballots: seq<Ballot>, b: Ballot, postId: string)
    requires Selection(b, postId).None? || Selection(b, postId).value !in CandidateIds(pc)
    ensures TallyRows(pc, ballots + [b], postId) == TallyRows(pc, ballots, postId)
  {
    assert (ballots + [b])[..|ballots|] == ballots;
    forall k | 0 <= k < |pc| ensures Selection(b, postId) != Some(pc[k].id) {
      assert pc[k].id in CandidateIds(pc);
    }
  }

  /** With no ballots every count and the total are 0 and there is no
      leader. */
  lemma NoBallotsNoLeader(r: PostResult, post: Post, candidates: seq<Candidate>)
    requires IsPostResult(r, post, candidates, [])
    ensures r.totalVotes == 0 && r.leadingVotes == 0 && r.leadingCandidate.None?
    ensures forall k :: 0 <= k < |r.candidates| ==> r.candidates[k].votes == 0
  {
    LeadingVotesIsMaximum(r.candidates, r.leadingCandidate, r.leadingVotes);
  }
}

=== FILE: theme.dfy ===
/** `ThemeManager` (theme.js): the light/dark theme, kept in the page's
    `data-theme` attribute and in persistent storage under the key
    "evoting_theme". Storage is a string map; the toggle button and its
    icon element are flags for whether the page has them. */
module Theme {

  /** The storage key of the chosen theme. */
  const ThemeKey: string := "evoting_theme"

  /** The theme a new manager starts with: the stored one when it is
      non-empty, "light" otherwise. */
  function InitialTheme(storage: map<string, string>): (theme: string)
    ensures theme != ""
    ensures theme == "light" || (ThemeKey in storage && theme == storage[ThemeKey])
    ensures ThemeKey in storage && storage[ThemeKey] != "" ==> theme == storage[ThemeKey]
  {
    if ThemeKey in storage && storage[ThemeKey] != "" then storage[ThemeKey] else "light"
  }

  /** The theme after a toggle: "light" becomes "dark", anything else
      becomes "light". */
  function Toggled(theme: string): (r: string)
    ensures r == "light" || r == "dark"
    ensures r != theme || theme !in {"light", "dark"}
    ensures r == "dark" <==> theme == "light"
  {
    if theme == "light" then "dark" else "light"
  }

  /** Toggling twice from "light" or "dark" gets back where it started;
      from any other value it ends on "dark". */
  lemma ToggleTwice(theme: string)
    ensures theme == "light" || theme == "dark" ==> Toggled(Toggled(theme)) == theme
    ensures theme != "light" && theme != "dark" ==> Toggled(Toggled(theme)) == "dark"
  {
  }

  /** The icon class of the toggle button for a theme. */
  function IconFor(theme: string): (icon: string)
    ensures icon == "fas fa-moon" || icon == "fas fa-sun"
  {
    if theme == "light" then "fas fa-moon" else "fas fa-sun"
  }

  /** The moon shows exactly in the light theme, the sun in every other. */
  lemma IconIff(theme: string)
    ensures IconFor(theme) == "fas fa-moon" <==> theme == "light"
    ensures IconFor(theme) == "fas fa-sun" <==> theme != "light"
  {
  }

  class ThemeManager {
    var currentTheme: string
    var pageTheme: string
    var storage: map<string, string>
    var toggleFound: bool
    var iconFound: bool
    var iconClass: string

    /** The page and the storage show the current theme. */
    ghost predicate Valid()
      reads this
    {
      ThemeKey in storage && storage[ThemeKey] == currentTheme && pageTheme == currentTheme
    }

    /** The constructor: the initial theme is applied (twice, once more by
        `init`). When the document is still loading, finding the toggle
        button waits for the document to load (a later `SetupToggle`);
        otherwise `setupToggle` runs at once, with `buttonPresent` and
        `iconPresent` saying whether the page has the button and its icon. */
    constructor(storage: map<string, string>, iconClass: string,
                documentLoading: bool, buttonPresent: bool, iconPresent: bool)
      ensures Valid()
      ensures currentTheme == InitialTheme(storage)
      ensures this.storage == storage[ThemeKey := InitialTheme(storage)]
      ensures documentLoading ==> !toggleFound && !iconFound && this.iconClass == iconClass
      ensures !documentLoading ==> toggleFound == buttonPresent && iconFound == (buttonPresent && iconPresent)
      ensures !documentLoading && buttonPresent && iconPresent ==> this.iconClass == IconFor(currentTheme)
      ensures !documentLoading && !(buttonPresent && iconPresent) ==> this.iconClass == iconClass
    {
      var theme := InitialTheme(storage);
      this.currentTheme := theme;
      this.pageTheme := theme;
      this.storage := storage[ThemeKey := theme];
      this.toggleFound := false;
      this.iconFound := false;
      this.iconClass := iconClass;
      new;
      if !documentLoading {
        SetupToggle(buttonPresent, iconPresent);
      }
    }

    /** `applyTheme`: the theme becomes current, is set on the page and is
        stored; no other storage entry changes. */
    method ApplyTheme(theme: string)
      modifies this
      ensures Valid()
      ensures currentTheme == theme && pageTheme == theme
      ensures storage == old(storage)[ThemeKey := theme]
      ensures toggleFound == old(toggleFound) && iconFound == old(iconFound) && iconClass == old(iconClass)
    {
      pageTheme := theme;
      currentTheme := theme;
      storage := storage[ThemeKey := theme];
    }

    /** `updateToggleIcon`: when the button and its icon exist, the icon
        shows the current theme. */
    method UpdateToggleIcon()
      modifies this
      ensures toggleFound && iconFound ==> iconClass == IconFor(currentTheme)
      ensures !(toggleFound && iconFound) ==> iconClass == old(iconClass)
      ensures currentTheme == old(currentTheme) && pageTheme == old(pageTheme) && storage == old(storage)
      ensures toggleFound == old(toggleFound) && iconFound == old(iconFound)
    {
      if toggleFound && iconFound {
        iconClass := IconFor(currentTheme);
      }
    }

    /** `setupToggle`: looks the button up and, when it exists, sets its
        icon. */
    method SetupToggle(buttonPresent: bool, iconPresent: bool)
      requires Valid()
      modifies this
      ensures Valid()
      ensures toggleFound == buttonPresent && iconFound == (buttonPresent && iconPresent)
      ensures buttonPresent && iconPresent ==> iconClass == IconFor(currentTheme)
      ensures !(buttonPresent && iconPresent) ==> iconClass == old(iconClass)
      ensures currentTheme == old(currentTheme) && storage == old(storage)
    {
      toggleFound := buttonPresent;
      iconFound := buttonPresent && iconPresent;
      if toggleFound {
        UpdateToggleIcon();
      }
    }

    /** `toggleTheme`: the other theme is applied and stored, and the icon
        follows it. */
    method ToggleTheme()
      requires Valid()
      modifies this
      ensures Valid()
      ensures currentTheme == Toggled(old(currentTheme))
      ensures storage == old(storage)[ThemeKey := currentTheme]
      ensures toggleFound && iconFound ==> iconClass == IconFor(currentTheme)
      ensures !(toggleFound && iconFound) ==> iconClass == old(iconClass)
      ensures toggleFound == old(toggleFound) && iconFound == old(iconFound)
    {
      var newTheme := Toggled(currentTheme);
      ApplyTheme(newTheme);
      UpdateToggleIcon();
    }
  }
}
